=== FILE: README.md ===
# NEMO authentication and consumables: a Dafny model

This project models the decision logic under two NEMO view modules. Everything runs as pure
functions over plain values. Django, the database and the LDAP directories become parameters.

* `NEMO/views/authentication.py`
  * The identity cleaning of the two Kerberos backends:
    * `RemoteUserAuthenticationBackend` cuts the principal at the first `@`;
    * `NginxKerberosAuthorizationHeaderAuthenticationBackend` parses a `Basic` `Authorization` header.
  * The Nginx backend's exists/active gate.
  * The control flow of `LDAPAuthenticationBackend.authenticate`: the checks made before any server is contacted, the bind name, and the ordered walk over `LDAP_SERVERS`, where the first successful bind wins.
  * The dispatch of the `login_user` view.
* `NEMO/views/consumables.py`
  * The withdrawal cart held in the session: add, delete at a Python index, clear, and commit.
  * The stock rule of `make_withdrawal`.
  * The `extended_permissions` predicate.
  * The `locked`/`can_charge` logic of `create_recurring_charge`.

The modules, one per file:

| module | file | contents |
|---|---|---|
| `Wrappers` | `wrappers.dfy` | `Option` and `Result` |
| `Bytes` | `bytes.dfy` | the octet type |
| `Text` | `text.dfy` | Python's `str.split()`, `str.partition(sep)[0]` and `int(text)` |
| `Base64` | `base64.dfy` | base64 as in section 4 of RFC 4648: the encoder, the strict decoder, and the lenient decoder CPython's `b64decode` runs by default, which is proved to agree with the strict one on strict tokens |
| `Utf8` | `utf8.dfy` | strict UTF-8 decoding as `bytes.decode()` does it; `Decode` and `Encode` are proved inverse bijections |
| `Authentication` | `authentication.dfy` | the users table, the exceptions, both `clean_username`s and the Nginx `authenticate` |
| `Ldap` | `ldap.dfy` | the LDAP backend |
| `Login` | `login.dfy` | `login_user` |
| `Consumables` | `consumables.dfy` | the cart, the stock and the recurring-charge permissions |

How the source's effects appear in the model:

* **Exceptions** are `Failure` values of a `Result`.
* **`None`** is `Option.None`.
* **The session cart** is an `Option<seq<CartEntry>>`, where `None` means the `withdrawals` key is absent.
* **Each LDAP server** carries a `Directory`. It has two functions: the answer to a search made under given service credentials, and the answer to a bind as a name with a password.
* **Django's `authenticate()`** and **URL resolution** are function parameters of `Login.LoginUser`.
* **The clock** is a day number passed in as `today`.

Where the code and its documentation differ, the model follows the code. The docstring of the Nginx backend's `clean_username` (NEMO/views/authentication.py:59-63) says the Kerberos realm is chopped off. The code only cuts the decoded credentials at the first `:`. `Authentication.CleanBasicHeader` proves the realm survives: a user-id `user@REALM` cleans to `user@REALM`.

## Model

| member | source | states |
|---|---|---|
| Text.Before | NEMO/views/authentication.py:32 | `partition(sep)[0]` is the prefix of the input that holds no `sep` and stops either at the end or just before a `sep`; these three facts fix it uniquely |
| Text.BeforeIdempotent | NEMO/views/authentication.py:32 | cutting at the first separator twice is cutting once |
| Text.Words | NEMO/views/authentication.py:66 | `split()` yields pieces that are non-empty and whitespace-free, and that together hold exactly the non-whitespace characters of the input, in order |
| Text.WordsUnique | NEMO/views/authentication.py:66-67 | `split()` is determined uniquely: words separated by non-empty runs of whitespace, with optional whitespace at the ends, split into exactly those words, so the pieces are the maximal runs of non-whitespace |
| Text.WordsOfPair | NEMO/views/authentication.py:66-67 | two words joined by one whitespace character split into exactly those two pieces |
| Text.ParseInt | NEMO/views/consumables.py:70 | `int()` of text that is empty or all whitespace raises, and so does text with more digits than the 4300-digit conversion limit |
| Text.TooManyDigits | NEMO/views/consumables.py:70 | a run of more than 4300 digits raises, with or without a minus sign, whatever its value |
| Text.TooManyZeros | NEMO/views/consumables.py:70 | 4301 zeros raise while 4300 zeros read as 0: leading zeros count toward the limit |
| Text.SeparatorIsNotNumber | NEMO/views/consumables.py:70 | `int()` skips only tab to carriage return, space and non-ASCII whitespace, so text that starts or ends with one of the ASCII separators U+001C..U+001F raises, although `str.isspace()` counts them as whitespace |
| Text.SeparatorExample | NEMO/views/consumables.py:70 | `int("\x1c5")` raises while `int(" 5")` is 5 |
| Text.ParseDecimal | NEMO/views/consumables.py:70 | `int(str(n)) == n` for every integer of at most 4300 digits, negative ones included; the decimal text of a longer one does not read back |
| Base64.Decode | NEMO/views/authentication.py:71 | `b64decode` of a `str` holding a non-ASCII character raises; on every token in strict RFC 4648 form it yields exactly what the strict decoder yields |
| Base64.DecodeEncode | NEMO/views/authentication.py:71 | `b64decode` gives back every byte string from its base64 encoding |
| Base64.StrictDecodeLength | NEMO/views/authentication.py:71 | a token in strict RFC 4648 form has a length divisible by 4, and decodes to three bytes per four characters, less one per `=` pad |
| Base64.PadsOnly | NEMO/views/authentication.py:71 | `b64decode("====")` is empty: a pad before two digits of a group is skipped |
| Base64.ExcessPad | NEMO/views/authentication.py:71 | `b64decode("QUJD=")` is `ABC`: a pad after a complete group is skipped |
| Base64.DataAfterPad | NEMO/views/authentication.py:71 | `b64decode("QQ==QUJD")` is `A`: decoding stops at the pads that complete a group |
| Base64.SkipsNonAlphabet | NEMO/views/authentication.py:71 | `b64decode("Q!Q==")` is `A`: the `!` is skipped |
| Base64.DropsLowBits | NEMO/views/authentication.py:71 | `b64decode("QR==")` is `A`, as for `QQ==`: `R` and `Q` differ only in bits that are dropped |
| Base64.IncompleteGroups | NEMO/views/authentication.py:71 | `b64decode("QUJDQ")` and `b64decode("QQ")` raise: one leftover digit, and a group left open without its pads |
| Base64.RunSkipsNonAlphabet | NEMO/views/authentication.py:71 | in every state of the decoding loop, a character that is neither in the alphabet nor `=` is skipped wherever it stands: the result is the result without it |
| Base64.DecodeSkipsNonAlphabet | NEMO/views/authentication.py:71 | `b64decode` gives the same result with or without an ASCII character outside the alphabet, at any position |
| Base64.RunWithoutPads | NEMO/views/authentication.py:71 | in every state of the decoding loop, text without `=` decodes exactly when the digits already read in the current group plus the alphabet characters of the text make whole groups of four |
| Base64.DecodeWithoutPads | NEMO/views/authentication.py:71 | `b64decode` of ASCII text without `=` succeeds exactly when its alphabet characters make whole groups of four; a partial group at the end raises |
| Base64.RunDoublePadGroup | NEMO/views/authentication.py:71 | a group ending in `==` at a group boundary emits the one octet made of its first digit and the top two bits of its second digit, and ends decoding, whatever follows |
| Base64.RunSinglePadGroup | NEMO/views/authentication.py:71 | a group ending in one `=` at a group boundary emits two octets that use only the top four bits of its third digit, and ends decoding, whatever follows |
| Base64.DropsLowBitsOfPaddedGroups | NEMO/views/authentication.py:71 | two padded groups whose last digits agree in the bits decoding uses decode alike, whatever ASCII text follows the pads |
| Utf8.Decode | NEMO/views/authentication.py:71 | whatever `.decode()` accepts holds one character per one to four octets |
| Utf8.DecodeEncode | NEMO/views/authentication.py:71 | `.decode()` gives back every string from its UTF-8 encoding |
| Utf8.EncodeDecode | NEMO/views/authentication.py:71 | whatever `.decode()` accepts re-encodes to the same octets; only canonical UTF-8 is accepted |
| Authentication.CleanRemoteUser | NEMO/views/authentication.py:27-32 | the cleaned remote user is the prefix before the first `@`; it holds no `@` |
| Authentication.CleanRemoteUserFacts | NEMO/views/authentication.py:27-32 | a name without `@` is unchanged, and cleaning twice is cleaning once |
| Authentication.CleanAuthorizationHeader | NEMO/views/authentication.py:59-71 | no name for a missing or empty header, for one that does not split into exactly two pieces, or for one whose first piece is not `Basic`; for a `Basic` header, a token `b64decode` refuses raises its error, octets that are not UTF-8 raise the decoding error, and otherwise the name is the decoded text before its first `:`; no other error is raised |
| Authentication.CleanBasicHeader | NEMO/views/authentication.py:59-71 | round trip: the header an RFC 7617 Basic client sends for a user-id without `:` cleans back to that user-id, whatever the password, realm included |
| Authentication.CleanPadsOnlyHeader | NEMO/views/authentication.py:59-71 | the header `Basic ====` cleans to the empty name instead of raising |
| Authentication.NginxAuthenticate | NEMO/views/authentication.py:38-57 | the header's user is returned exactly when the name exists and the user is active, otherwise no user; it raises exactly when cleaning raises, and with the same exception |
| Authentication.NginxAuthenticateBasicClient | NEMO/views/authentication.py:38-71 | end to end, a Basic client naming an active user is let in as that user; one naming an unknown or inactive user gets no user and no error |
| Ldap.FailureOf | NEMO/views/authentication.py:134-137 | an `LDAPBindError` is recorded as a wrong password and any other `LDAPException` as an LDAP error, in both directions, never as a search miss |
| Ldap.Qualified | NEMO/views/authentication.py:105 | `domain\username` when a domain is configured, the bare username otherwise |
| Ldap.ServiceCredentials | NEMO/views/authentication.py:107-111 | a simple bind happens exactly when both a bind username and a bind password are configured, with the username domain-qualified; otherwise the bind is anonymous |
| Ldap.UserBindName | NEMO/views/authentication.py:105-124 | the user is bound as the qualified username in bind-as-authentication mode; in search mode it is the DN the search returned, and there is no bind name when the search finds nothing |
| Ldap.AttemptServer | NEMO/views/authentication.py:97-137 | a server authenticates the user exactly when the bind as the bind name with the user's password succeeds; a search miss is reported exactly when search mode finds no entry; any other failure is the recorded form of the exception the search or the user's bind raised |
| Ldap.TryServers | NEMO/views/authentication.py:94-138 | authenticated exactly when some server in the list succeeds; the loop stops at the first success, so no server after it is contacted; without a success every server is tried; the errors are the failures of the servers tried, in order |
| Ldap.LdapAuthenticate | NEMO/views/authentication.py:78-144 | an empty username or password gives no user and contacts nothing; an unknown user raises `DoesNotExist` and an inactive one `InactiveUserError`, both before any server; otherwise the user is returned exactly when some server authenticates them; errors are logged, one per server, only when none does |
| Login.NonMiddlewareBackends | NEMO/views/authentication.py:155 | the configured backends left once the two middleware backends are removed, none missing and none added |
| Login.AfterLogin | NEMO/views/authentication.py:174-181 | after login the redirect goes to `next` exactly when it is present and resolves, otherwise to the landing page |
| Login.LoginUser | NEMO/views/authentication.py:147-183 | methods other than GET and POST are refused; with a middleware backend configured, an authenticated user goes to the landing page, and an unauthenticated one is refused when no other backend is left; a GET shows a blank form; on a POST a user is logged in only when `authenticate` returns one, `DoesNotExist` and `InactiveUserError` give the authorization-failed page, other exceptions escape, and no user re-shows the form with the incorrect-credentials flag |
| Login.MiddlewareOnlyNeverShowsForm | NEMO/views/authentication.py:151-158 | with only middleware backends configured, the login form is never shown |
| Login.NoOtherBackends | NEMO/views/authentication.py:155-156 | a backend list of only middleware backends leaves no other backend |
| Consumables.AddWithdrawal | NEMO/views/consumables.py:49-63 | adding appends exactly one entry at the end; the earlier entries keep their values and order, and a missing cart starts empty |
| Consumables.PythonIndex | NEMO/views/consumables.py:73 | Python's list index: valid exactly for `-len <= i < len`, a negative one counting from the end |
| Consumables.Without | NEMO/views/consumables.py:73 | `del xs[k]` leaves one element fewer, the others in their order, and the same multiset less `xs[k]` |
| Consumables.RemoveWithdrawalAtIndex | NEMO/views/consumables.py:66-77 | a valid index deletes exactly that entry; an index that is not an integer or is out of range, or an empty or absent cart, leaves the cart unchanged and raises nothing |
| Consumables.SeparatorIndexKeepsCart | NEMO/views/consumables.py:66-77 | an index text starting or ending with an ASCII separator U+001C..U+001F makes `int()` raise, so the cart is left as it was |
| Consumables.RemoveNegativeIndex | NEMO/views/consumables.py:68-74 | removing at `k - len` removes the same entry as removing at `k`, for every cart whose length has at most 4300 digits |
| Consumables.OverlongIndexKeepsCart | NEMO/views/consumables.py:66-77 | an index of more than 4300 digits makes `int()` raise, so the cart stays as it was, even when the digits spell a valid index |
| Consumables.AddThenRemoveLast | NEMO/views/consumables.py:49-74 | removing at `-1` right after an add takes back exactly the entry added |
| Consumables.ClearWithdrawals | NEMO/views/consumables.py:80-85 | clearing leaves no cart whatever was there, so clearing is idempotent and clearing an absent cart changes nothing |
| Consumables.ClearThenAdd | NEMO/views/consumables.py:49-63 | after a clear, the next add gives a cart of that entry alone; clearing again changes nothing |
| Consumables.Withdrawn | NEMO/views/consumables.py:161-163 | a non-reusable consumable loses exactly the withdrawn quantity, with no lower bound; a reusable one is unchanged |
| Consumables.MakeWithdrawal | NEMO/views/consumables.py:159-164 | creating the row raises exactly when its consumable, customer or project does not exist, naming one that is missing; otherwise one withdrawal record is created with the given fields, only that consumable's stock changes, and a reusable consumable does not change at all |
| Consumables.FirstMissing | NEMO/views/consumables.py:92-93 | the first cart entry whose consumable, customer or project does not exist, if any, with everything every earlier entry refers to existing |
| Consumables.MakeWithdrawals | NEMO/views/consumables.py:88-95 | commit makes one withdrawal per cart entry, in cart order, then leaves the cart exactly as a clear would; each non-reusable consumable has lost the sum of its entries' quantities and reusable ones are unchanged; an entry whose consumable, customer or project no longer exists raises an error naming a missing one, and then the entries before it stay committed and the cart stays |
| Consumables.ExtendedPermissions | NEMO/views/consumables.py:153-156 | everybody has extended permissions with the charge lock off; with it on, exactly facility managers and superusers do |
| Consumables.LockOnlyRestricts | NEMO/views/consumables.py:153-156 | turning the lock on only takes extended permissions away, never from a facility manager or a superuser |
| Consumables.CanCharge | NEMO/views/consumables.py:120 | charging is refused exactly when the charge exists and was last charged today |
| Consumables.CanChargeByDate | NEMO/views/consumables.py:120 | a charge never charged or last charged on another day can be charged, one charged today cannot, and a new charge always can |
| Consumables.CreateRecurringCharge | NEMO/views/consumables.py:106-131 | creating a new charge (no id or id 0) without extended permissions, and only that, redirects to login; the form is locked exactly when the user lacks extended permissions; `can_charge` is false exactly when the charge was already made today; a valid POST saves, and charges when asked |
| Consumables.NonZeroIdReachesForm | NEMO/views/consumables.py:108-131 | the login redirect checks the id argument, not whether a charge with that id exists: any non-zero id, even an unknown one, reaches the form (locked without extended permissions), and a valid POST is saved |

## Left out

- Django plumbing is not modelled:
  - the `staff_member_required`, `require_GET`, `require_POST` and `sensitive_post_parameters` decorators (only the GET/POST restriction of `login_user` is modelled);
  - template rendering, flash messages and the text of log lines;
  - `logout_user` and `authorization_failed`.
- The ORM is not modelled: `User.objects.get` is a lookup in a map, and `ConsumableWithdraw.objects.create` and `.save()` are pure state updates. The foreign keys of a new withdrawal row are checked against the consumable table and the sets of existing customer and project ids.
- Forms, `check_billing_to_project`, `rate_class`, `SortedPaginator`, and the `consumables` and `recurring_charges` views are Django or external code, and are left out.
- `delete_recurring_charge` and `clear_recurring_charge` are left out: they are object deletion and model methods.
- `send_reorder_supply_reminder_email` is e-mail I/O and is left out.
- ldap3 and TLS (`Tls`, `Server`, `Connection`, ports, certificates) are not modelled. A server's search and bind are given as oracles.
- The search filter and the `search_attribute` check at NEMO/views/authentication.py:113-116 are not modelled. Any search that yields no usable entry is the single outcome `NoResults`.
- A missing `url` or `base_dn` key in a server's configuration raises a `KeyError`. This is not modelled.
- `RemoteUserAuthenticationBackend.authenticate` is inherited from Django and is not part of this model.
- Base64.Decode follows the decoding loop of CPython 3.7 and later without strict mode. It does not model a `bytes` argument to `b64decode`, because the header value is always a `str`. All of `b64decode`'s errors, including the `ValueError` for a non-ASCII `str`, become the one error `Base64Error`.
- Text.ParseInt accepts only ASCII digits after an optional sign, with surrounding whitespace of the kinds `int()` skips (tab to carriage return, space, and non-ASCII whitespace). Python's `int()` also accepts `_` between digits and non-ASCII decimal digits, which the model rejects.
- Text.ParseInt uses CPython's default limit of 4300 digits for integer string conversion. Python versions before the limit was introduced have no limit. The limit can be changed with `sys.set_int_max_str_digits` or `PYTHONINTMAXSTRDIGITS`. The model fixes the default.
- Text.ParseInt states only the empty and over-long cases in its own contract. What it reads correctly is stated by `Text.ParseDecimal`, which proves that the decimal text of every integer within the limit reads back as that integer.
- Consumables.MakeWithdrawal treats a missing consumable, customer or project as raising before a withdrawal row for it is kept. It assumes the database checks foreign keys when the row is inserted, as it does outside a transaction. Inside a transaction with deferred checks, the stock change is saved first and the error comes later, at `withdraw.project` (NEMO/views/consumables.py:171). When several are missing, which one the database error names is left open. Whether the database keeps a half-made row, and whether the request is rolled back as a transaction, depends on settings that are not part of this model. The model keeps the rows made before the failing entry.
- Consumables.MakeWithdrawals assumes one request at a time. `make_withdrawal` reads a consumable's quantity, subtracts, and saves, and the cart is read, changed and written back within each request. Two concurrent requests can lose a stock decrement or a cart change. So the stock totals it states hold only without concurrent requests; concurrency is not modelled.
- Consumables.MakeWithdrawal does not model the success message, including its "your withdrawal" versus "the withdrawal … for" wording.
- Consumables.CreateRecurringCharge takes form validation and the `save_and_charge` button as booleans. The save itself is not modelled.
- Consumables.CreateRecurringCharge takes the local date of the last charge and today's date as day numbers. Time-zone conversion is not modelled.
- NEMO/migrations/0040_auto_20220504_1601.py is a declarative schema change with no logic, and is not modelled.

=== FILE: authentication.dfy ===
/** The identity-string cleaning of NEMO's Kerberos backends and the gate the Nginx
    header backend applies (NEMO/views/authentication.py). The user table, the request
    header and the exceptions are plain values here. */
module Authentication {
  import opened Wrappers
  import opened Bytes
  import Text
  import Base64
  import Utf8

  /** The exceptions the backends raise and the login view catches or lets through. */
  datatype Exception =
    | UserDoesNotExist      // `User.DoesNotExist`
    | InactiveUser          // `NEMO.exceptions.InactiveUserError`
    | Base64Error           // the `ValueError` (`binascii.Error` included) from `b64decode`
    | UnicodeDecodeError    // from `bytes.decode()`

  /** The part of a NEMO user row these views read. */
  datatype User = User(username: string, isActive: bool, isFacilityManager: bool, isSuperuser: bool)

  /** `User.objects`, looked up by exact username. */
  type UserTable = map<string, User>

  /** `RemoteUserAuthenticationBackend.clean_username`: the Kerberos principal
      `user@REALM` loses its realm. The result is the prefix of `username` that stops
      just before the first `@`, or all of it when there is none. */
  function CleanRemoteUser(username: string): (r: string)
    ensures r <= username
    ensures '@' !in r
    ensures |r| == |username| || username[|r|] == '@'
  {
    Text.Before(username, '@')
  }

  /** A name without `@` passes unchanged, and cleaning twice is cleaning once. */
  lemma CleanRemoteUserFacts(username: string)
    ensures '@' !in username ==> CleanRemoteUser(username) == username
    ensures CleanRemoteUser(CleanRemoteUser(username)) == CleanRemoteUser(username)
  {
    Text.BeforeIdempotent(username, '@');
  }

  /** `NginxKerberosAuthorizationHeaderAuthenticationBackend.clean_username` applied to
      the `Authorization` header (`None` when the header is absent). It yields no name
      unless the header is exactly two whitespace-separated pieces, the first being
      `Basic`; then the second piece is base64-decoded, read as UTF-8, and cut at the
      first `:`. The realm is not removed. A token `b64decode` refuses, or octets that
      are not UTF-8, raise. */
  function CleanAuthorizationHeader(header: Option<string>): (r: Result<Option<string>, Exception>)
    ensures header == None || header == Some("") ==> r == Success(None)
    ensures header.Some? && |Text.Words(header.value)| != 2 ==> r == Success(None)
    ensures header.Some? ==>
              var pieces := Text.Words(header.value);
              |pieces| == 2 && pieces[0] != "Basic" ==> r == Success(None)
    ensures header.Some? ==>
              var pieces := Text.Words(header.value);
              |pieces| == 2 && pieces[0] == "Basic" ==>
                match Base64.Decode(pieces[1])
                case None => r == Failure(Base64Error)
                case Some(octets) =>
                  match Utf8.Decode(octets)
                  case None => r == Failure(UnicodeDecodeError)
                  case Some(text) => r == Success(Some(Text.Before(text, ':')))
    ensures r.Success? && r.value.Some? ==> ':' !in r.value.value
    ensures r.Failure? ==> r.error == Base64Error || r.error == UnicodeDecodeError
  {
    if header.None? || |header.value| == 0 then Success(None)
    else
      var pieces := Text.Words(header.value);
      if |pieces| != 2 then Success(None)
      else if pieces[0] != "Basic" then Success(None)
      else
        match Base64.Decode(pieces[1])
        case None => Failure(Base64Error)
        case Some(octets) =>
          match Utf8.Decode(octets)
          case None => Failure(UnicodeDecodeError)
          case Some(text) => Success(Some(Text.Before(text, ':')))
  }

  /** The credentials a client sends with HTTP Basic authentication (section 2 of
      RFC 7617): `Basic ` and the base64 of the UTF-8 of `user-id:password`. */
  function BasicHeader(userId: string, password: string): string {
    "Basic " + Base64.Encode(Utf8.Encode(userId + ":" + password))
  }

  /** The header a Basic client sends for `userId` cleans back to `userId` exactly,
      whatever the password, as long as the user-id holds no `:`. An `@REALM` suffix
      in the user-id survives: this backend does not strip the realm. */
  lemma CleanBasicHeader(userId: string, password: string)
    requires ':' !in userId
    ensures CleanAuthorizationHeader(Some(BasicHeader(userId, password))) == Success(Some(userId))
  {
    var credentials := userId + ":" + password;
    var token := Base64.Encode(Utf8.Encode(credentials));
    Utf8.DecodeEncode(credentials);
    Base64.DecodeEncode(Utf8.Encode(credentials));
    Base64.EncodeLength(Utf8.Encode(credentials));
    assert |Utf8.Encode(credentials)| > 0 by {
      assert credentials == [credentials[0]] + credentials[1..];
    }
    forall i | 0 <= i < |token|
      ensures !Text.IsPythonSpace(token[i])
    {
      Base64.EncodedAlphabet(Utf8.Encode(credentials), i);
    }
    assert Text.IsWord("Basic");
    assert "Basic " + token == "Basic" + [' '] + token;
    Text.WordsOfPair("Basic", ' ', token);
    Text.BeforeUnique(credentials, ':', userId);
  }

  /** A token of pad characters alone decodes to no octets, so the header
      `Basic ====` cleans to the empty name rather than raising. */
  lemma CleanPadsOnlyHeader()
    ensures CleanAuthorizationHeader(Some("Basic ====")) == Success(Some(""))
  {
    assert "Basic ====" == "Basic" + [' '] + "====";
    assert Text.IsWord("Basic") && Text.IsWord("====");
    Text.WordsOfPair("Basic", ' ', "====");
    Base64.PadsOnly();
  }

  /** `NginxKerberosAuthorizationHeaderAuthenticationBackend.authenticate`: the user
      named by the header, provided that name exists and the user is active;
      otherwise no user. The decoding errors of the header propagate. */
  function NginxAuthenticate(header: Option<string>, users: UserTable): (r: Result<Option<User>, Exception>)
    ensures r.Failure? <==> CleanAuthorizationHeader(header).Failure?
    ensures r.Failure? ==> CleanAuthorizationHeader(header) == Failure(r.error)
    ensures r.Success? && r.value.Some? ==>
              && CleanAuthorizationHeader(header).Success?
              && CleanAuthorizationHeader(header).value.Some?
              && var name := CleanAuthorizationHeader(header).value.value;
              && name in users && users[name] == r.value.value && r.value.value.isActive
    ensures CleanAuthorizationHeader(header).Success? && CleanAuthorizationHeader(header).value.Some? ==>
              var name := CleanAuthorizationHeader(header).value.value;
              (name in users && users[name].isActive <==> r.Success? && r.value.Some?)
  {
    var name :- CleanAuthorizationHeader(header);
    // `User.objects.get(username=None)` matches no row.
    if name.None? || name.value !in users then Success(None)
    else if !users[name.value].isActive then Success(None)
    else Success(Some(users[name.value]))
  }

  /** End to end: a Basic client whose user-id names an active user is let in as that
      user; naming an unknown or inactive user gets no user and no error. */
  lemma NginxAuthenticateBasicClient(userId: string, password: string, users: UserTable)
    requires ':' !in userId
    ensures userId in users && users[userId].isActive ==>
              NginxAuthenticate(Some(BasicHeader(userId, password)), users) == Success(Some(users[userId]))
    ensures !(userId in users && users[userId].isActive) ==>
              NginxAuthenticate(Some(BasicHeader(userId, password)), users) == Success(None)
  {
    CleanBasicHeader(userId, password);
  }
}

=== FILE: base64.dfy ===
/** The base64 encoding of section 4 of RFC 4648 (alphabet `A-Z a-z 0-9 + /`, `=`
    padding) as a client writes the token of an HTTP Basic `Authorization` header
    (section 2 of RFC 7617); its strict decoding; and the lenient decoding CPython's
    `base64.b64decode` performs by default, which agrees with the strict one on every
    well-formed token. */
module Base64 {
  import opened Wrappers
  import opened Bytes

  /** One base64 digit: six bits. */
  type sextet = x: int | 0 <= x < 64

  /** The alphabet of section 4 of RFC 4648, table 1. */
  function CharOf(v: sextet): char {
    if v < 26 then ('A' as int + v) as char
    else if v < 52 then ('a' as int + (v - 26)) as char
    else if v < 62 then ('0' as int + (v - 52)) as char
    else if v == 62 then '+'
    else '/'
  }

  /** The inverse of the alphabet table; `None` for a character outside it. */
  function ValueOf(c: char): (r: Option<sextet>)
    ensures r.Some? ==> CharOf(r.value) == c
  {
    if 'A' <= c <= 'Z' then Some(c as int - 'A' as int)
    else if 'a' <= c <= 'z' then Some(c as int - 'a' as int + 26)
    else if '0' <= c <= '9' then Some(c as int - '0' as int + 52)
    else if c == '+' then Some(62)
    else if c == '/' then Some(63)
    else None
  }

  /** Every digit's character reads back as that digit. */
  lemma ValueOfCharOf(v: sextet)
    ensures ValueOf(CharOf(v)) == Some(v)
  {
  }

  predicate IsAlphabet(c: char) {
    ValueOf(c).Some?
  }

  /** Three octets as four digits. */
  function EncodeThree(a: byte, b: byte, c: byte): string {
    [CharOf(a / 4), CharOf((a % 4) * 16 + b / 16), CharOf((b % 16) * 4 + c / 64), CharOf(c % 64)]
  }

  /** A final single octet as two digits and two pad characters. */
  function EncodeOne(a: byte): string {
    [CharOf(a / 4), CharOf((a % 4) * 16), '=', '=']
  }

  /** A final pair of octets as three digits and one pad character. */
  function EncodeTwo(a: byte, b: byte): string {
    [CharOf(a / 4), CharOf((a % 4) * 16 + b / 16), CharOf((b % 16) * 4), '=']
  }

  /** Base64 encoding with padding. */
  function Encode(b: seq<byte>): string {
    if |b| == 0 then ""
    else if |b| == 1 then EncodeOne(b[0])
    else if |b| == 2 then EncodeTwo(b[0], b[1])
    else EncodeThree(b[0], b[1], b[2]) + Encode(b[3..])
  }

  /** Four digits back to three octets. */
  function DecodeThree(s0: sextet, s1: sextet, s2: sextet, s3: sextet): seq<byte> {
    [s0 * 4 + s1 / 16, (s1 % 16) * 16 + s2 / 4, (s2 % 4) * 64 + s3]
  }

  /** One group of four characters with no padding. */
  function DecodeFull(q: string): Option<seq<byte>>
    requires |q| == 4
  {
    var s0 :- ValueOf(q[0]);
    var s1 :- ValueOf(q[1]);
    var s2 :- ValueOf(q[2]);
    var s3 :- ValueOf(q[3]);
    Some(DecodeThree(s0, s1, s2, s3))
  }

  /** The last group, which may end in `==` (one octet) or `=` (two octets). Like
      CPython's decoder, the unused low bits of the last digit are ignored. */
  function DecodeLast(q: string): Option<seq<byte>>
    requires |q| == 4
  {
    if q[3] != '=' then DecodeFull(q)
    else if q[2] == '=' then
      var s0 :- ValueOf(q[0]);
      var s1 :- ValueOf(q[1]);
      Some([s0 * 4 + s1 / 16])
    else
      var s0 :- ValueOf(q[0]);
      var s1 :- ValueOf(q[1]);
      var s2 :- ValueOf(q[2]);
      Some([s0 * 4 + s1 / 16, (s1 % 16) * 16 + s2 / 4])
  }

  /** The number of pad characters a well-formed encoding ends with. */
  function Padding(s: string): nat {
    if |s| >= 2 && s[|s| - 2] == '=' && s[|s| - 1] == '=' then 2
    else if |s| >= 1 && s[|s| - 1] == '=' then 1
    else 0
  }

  /** Strict base64 decoding, section 4 of RFC 4648: whole groups of four alphabet
      characters, padding only at the very end. `None` for anything else. */
  function StrictDecode(s: string): Option<seq<byte>>
    decreases |s|
  {
    if |s| == 0 then Some([])
    else if |s| < 4 then None
    else if |s| == 4 then DecodeLast(s)
    else
      var group :- DecodeFull(s[..4]);
      var rest :- StrictDecode(s[4..]);
      Some(group + rest)
  }

  /** An encoding has four characters for every started group of three octets. */
  lemma {:induction false} EncodeLength(b: seq<byte>)
    ensures |Encode(b)| == 4 * ((|b| + 2) / 3)
  {
    if |b| > 3 {
      EncodeLength(b[3..]);
    }
  }

  /** A token the strict decoder accepts is whole groups of four and yields three
      octets per group, less one per pad character. */
  lemma {:induction false} StrictDecodeLength(s: string)
    requires StrictDecode(s).Some?
    ensures |s| % 4 == 0
    ensures |StrictDecode(s).value| == 3 * (|s| / 4) - Padding(s)
  {
    if |s| > 4 {
      StrictDecodeLength(s[4..]);
      assert s[4..][|s[4..]| - 1] == s[|s| - 1];
      assert s[4..][|s[4..]| - 2] == s[|s| - 2];
    }
  }

  lemma SplitByte(hi: int, lo: int, k: int)
    requires k in {4, 16, 64} && 0 <= lo < k
    ensures (hi * k + lo) / k == hi && (hi * k + lo) % k == lo
  {
    if k == 4 {
    } else if k == 16 {
    } else {
    }
  }

  /** The first octet comes back from the first two digits. */
  lemma RecoverFirst(a: byte, x: int)
    requires 0 <= x < 16
    ensures (a / 4) * 4 + ((a % 4) * 16 + x) / 16 == a
  {
    SplitByte(a % 4, x, 16);
  }

  /** The second octet comes back from the second and third digits. */
  lemma RecoverSecond(a: byte, b: byte, y: int)
    requires 0 <= y < 4
    ensures (((a % 4) * 16 + b / 16) % 16) * 16 + ((b % 16) * 4 + y) / 4 == b
  {
    SplitByte(a % 4, b / 16, 16);
    SplitByte(b % 16, y, 4);
  }

  /** The third octet comes back from the third and fourth digits. */
  lemma RecoverThird(b: byte, c: byte)
    ensures (((b % 16) * 4 + c / 64) % 4) * 64 + c % 64 == c
  {
    SplitByte(b % 16, c / 64, 4);
  }

  /** The digits of three octets turn back into those octets. */
  lemma DecodeThreeOfDigits(a: byte, b: byte, c: byte)
    ensures DecodeThree(a / 4, (a % 4) * 16 + b / 16, (b % 16) * 4 + c / 64, c % 64) == [a, b, c]
  {
    RecoverFirst(a, b / 16);
    RecoverSecond(a, b, c / 64);
    RecoverThird(b, c);
  }

  lemma DecodeThreeOfEncodeThree(a: byte, b: byte, c: byte)
    ensures DecodeFull(EncodeThree(a, b, c)) == Some([a, b, c])
  {
    var q := EncodeThree(a, b, c);
    ValueOfCharOf(a / 4);
    ValueOfCharOf((a % 4) * 16 + b / 16);
    ValueOfCharOf((b % 16) * 4 + c / 64);
    ValueOfCharOf(c % 64);
    assert ValueOf(q[0]) == Some(a / 4);
    assert ValueOf(q[1]) == Some((a % 4) * 16 + b / 16);
    assert ValueOf(q[2]) == Some((b % 16) * 4 + c / 64);
    assert ValueOf(q[3]) == Some(c % 64);
    DecodeThreeOfDigits(a, b, c);
  }

  lemma DecodeEncodeOne(a: byte)
    ensures DecodeLast(EncodeOne(a)) == Some([a])
  {
    ValueOfCharOf(a / 4);
    ValueOfCharOf((a % 4) * 16);
    RecoverFirst(a, 0);
  }

  lemma DecodeEncodeTwo(a: byte, b: byte)
    ensures DecodeLast(EncodeTwo(a, b)) == Some([a, b])
  {
    var q := EncodeTwo(a, b);
    ValueOfCharOf(a / 4);
    ValueOfCharOf((a % 4) * 16 + b / 16);
    ValueOfCharOf((b % 16) * 4);
    RecoverFirst(a, b / 16);
    RecoverSecond(a, b, 0);
    assert q[2] == CharOf((b % 16) * 4) != '=';
  }

  /** A non-empty encoding that is not the last group decodes its first group and
      then the rest. */
  lemma DecodeOfLongerThanFour(s: string)
    requires |s| > 4
    requires DecodeFull(s[..4]).Some? && StrictDecode(s[4..]).Some?
    ensures StrictDecode(s) == Some(DecodeFull(s[..4]).value + StrictDecode(s[4..]).value)
  {
  }

  lemma CharOfIsNotPad(v: sextet)
    ensures CharOf(v) != '='
  {
  }

  lemma DecodeEncodeThree(a: byte, b: byte, c: byte)
    ensures StrictDecode(EncodeThree(a, b, c)) == Some([a, b, c])
  {
    DecodeThreeOfEncodeThree(a, b, c);
    CharOfIsNotPad(c % 64);
  }

  /** Strict decoding undoes encoding for every octet string. */
  lemma {:induction false} StrictDecodeEncode(b: seq<byte>)
    ensures StrictDecode(Encode(b)) == Some(b)
  {
    if |b| == 1 {
      DecodeEncodeOne(b[0]);
      assert b == [b[0]];
    } else if |b| == 2 {
      DecodeEncodeTwo(b[0], b[1]);
      assert b == [b[0], b[1]];
    } else if |b| == 3 {
      DecodeEncodeThree(b[0], b[1], b[2]);
      assert b == [b[0], b[1], b[2]];
    } else if |b| > 3 {
      StrictDecodeEncode(b[3..]);
      DecodeEncodeMany(b);
    }
  }

  lemma EncodeOfLongerThanThree(b: seq<byte>)
    requires |b| > 3
    ensures Encode(b) == EncodeThree(b[0], b[1], b[2]) + Encode(b[3..])
  {
  }

  lemma FirstThree(b: seq<byte>)
    requires |b| >= 3
    ensures b[..3] == [b[0], b[1], b[2]]
  {
  }

  /** A full group followed by a well-formed remainder decodes group by group. */
  lemma DecodeConcat(head: string, tail: string)
    requires |head| == 4 && |tail| > 0
    requires DecodeFull(head).Some? && StrictDecode(tail).Some?
    ensures StrictDecode(head + tail) == Some(DecodeFull(head).value + StrictDecode(tail).value)
  {
    var s := head + tail;
    assert s[..4] == head;
    assert s[4..] == tail;
    DecodeOfLongerThanFour(s);
  }

  lemma DecodeEncodeMany(b: seq<byte>)
    requires |b| > 3
    requires StrictDecode(Encode(b[3..])) == Some(b[3..])
    ensures StrictDecode(Encode(b)) == Some(b)
  {
    var head := EncodeThree(b[0], b[1], b[2]);
    var tail := Encode(b[3..]);
    EncodeOfLongerThanThree(b);
    DecodeThreeOfEncodeThree(b[0], b[1], b[2]);
    FirstThree(b);
    DecodeConcat(head, tail);
    assert b == b[..3] + b[3..];
  }

  /** Every character an encoder emits is a digit or the pad character. */
  lemma {:induction false} EncodedAlphabet(b: seq<byte>, i: int)
    requires 0 <= i < |Encode(b)|
    ensures IsAlphabet(Encode(b)[i]) || Encode(b)[i] == '='
  {
    if |b| > 3 {
      EncodeOfLongerThanThree(b);
      if i >= 4 {
        EncodedAlphabet(b[3..], i - 4);
      }
    }
  }

  // ----- CPython's lenient decoder --------------------------------------------

  /** The bits of the last digit the lenient decoder still holds after reading
      `quad` digits of the current group: six after one, four after two, two after
      three, none at a group boundary. */
  predicate Carry(quad: nat, left: nat) {
    quad < 4 && left < (if quad == 1 then 64 else if quad == 2 then 16 else if quad == 3 then 4 else 1)
  }

  /** The loop of CPython's `binascii.a2b_base64` without strict mode, from a state of
      `quad` digits read in the current group, the held bits `left`, the pad
      characters `pads` counted since the last digit, and the octets `out` emitted.
      A character outside the alphabet is skipped. A `=` ends the input once the pads
      complete the group; before two digits of the group are read it is skipped. At
      the end of the input a partial group is an error. */
  function Run(s: string, quad: nat, left: nat, pads: nat, out: seq<byte>): Option<seq<byte>>
    requires Carry(quad, left)
    decreases |s|
  {
    if |s| == 0 then
      if quad == 0 then Some(out) else None
    else if s[0] == '=' then
      if quad >= 2 && quad + pads + 1 >= 4 then Some(out)
      else Run(s[1..], quad, left, if quad >= 2 then pads + 1 else pads, out)
    else
      match ValueOf(s[0])
      case None => Run(s[1..], quad, left, pads, out)
      case Some(v) =>
        if quad == 0 then Run(s[1..], 1, v, 0, out)
        else if quad == 1 then Run(s[1..], 2, v % 16, 0, out + [left * 4 + v / 16])
        else if quad == 2 then Run(s[1..], 3, v % 4, 0, out + [left * 16 + v / 4])
        else Run(s[1..], 0, 0, 0, out + [left * 64 + v])
  }

  predicate IsAscii(c: char) {
    c as int < 128
  }

  /** `base64.b64decode(s)` with its default `validate=False`, `None` standing for the
      `ValueError` it raises. A `str` argument must be ASCII; then the lenient loop
      runs. On every token in strict form it gives what the strict decoder gives. */
  function Decode(s: string): (r: Option<seq<byte>>)
    ensures (exists i :: 0 <= i < |s| && !IsAscii(s[i])) ==> r == None
    ensures StrictDecode(s).Some? ==> r == StrictDecode(s)
  {
    StrictIsAscii(s);
    RunAgreesWithStrict(s);
    if forall i :: 0 <= i < |s| ==> IsAscii(s[i]) then Run(s, 0, 0, 0, []) else None
  }

  /** Reading a full group of four digits emits its three octets and returns to a
      group boundary. */
  lemma RunGroup(q: string, rest: string, out: seq<byte>)
    requires |q| == 4 && DecodeFull(q).Some?
    ensures Run(q + rest, 0, 0, 0, out) == Run(rest, 0, 0, 0, out + DecodeFull(q).value)
  {
    var s := q + rest;
    var v0: int, v1: int, v2: int, v3: int := ValueOf(q[0]).value, ValueOf(q[1]).value, ValueOf(q[2]).value, ValueOf(q[3]).value;
    assert s[0] == q[0] && s[1..][0] == q[1] && s[2..][0] == q[2] && s[3..][0] == q[3];
    assert s[1..][1..] == s[2..] && s[2..][1..] == s[3..] && s[3..][1..] == rest;
    CharOfIsNotPad(v0);
    CharOfIsNotPad(v1);
    CharOfIsNotPad(v2);
    CharOfIsNotPad(v3);
    var o1 := out + [v0 * 4 + v1 / 16];
    var o2 := o1 + [(v1 % 16) * 16 + v2 / 4];
    var o3 := o2 + [(v2 % 4) * 64 + v3];
    assert Run(s, 0, 0, 0, out) == Run(s[1..], 1, v0, 0, out);
    assert Run(s[1..], 1, v0, 0, out) == Run(s[2..], 2, v1 % 16, 0, o1);
    assert Run(s[2..], 2, v1 % 16, 0, o1) == Run(s[3..], 3, v2 % 4, 0, o2);
    assert Run(s[3..], 3, v2 % 4, 0, o2) == Run(rest, 0, 0, 0, o3);
    assert o3 == out + DecodeThree(v0, v1, v2, v3);
  }

  /** The last group of a strict token, padded or not, ends the lenient loop with the
      same octets the strict decoder gives. */
  lemma RunLast(q: string, out: seq<byte>)
    requires |q| == 4 && DecodeLast(q).Some?
    ensures Run(q, 0, 0, 0, out) == Some(out + DecodeLast(q).value)
  {
    if q[3] != '=' {
      assert q + "" == q;
      RunGroup(q, "", out);
    } else {
      var v0: int, v1: int := ValueOf(q[0]).value, ValueOf(q[1]).value;
      CharOfIsNotPad(v0);
      CharOfIsNotPad(v1);
      assert q[1..][0] == q[1] && q[1..][1..] == q[2..];
      var o1 := out + [v0 * 4 + v1 / 16];
      assert Run(q, 0, 0, 0, out) == Run(q[2..], 2, v1 % 16, 0, o1);
      if q[2] == '=' {
        assert q[2..][1..] == q[3..] && q[3..][0] == '=';
        assert Run(q[2..], 2, v1 % 16, 0, o1) == Run(q[3..], 2, v1 % 16, 1, o1);
      } else {
        var v2: int := ValueOf(q[2]).value;
        CharOfIsNotPad(v2);
        assert q[2..][1..] == q[3..] && q[3..][0] == '=';
        var o2 := o1 + [(v1 % 16) * 16 + v2 / 4];
        assert Run(q[2..], 2, v1 % 16, 0, o1) == Run(q[3..], 3, v2 % 4, 0, o2);
        assert Run(q[3..], 3, v2 % 4, 0, o2) == Some(o2);
        assert DecodeLast(q).value == [v0 * 4 + v1 / 16, (v1 % 16) * 16 + v2 / 4];
        assert o2 == out + DecodeLast(q).value;
      }
    }
  }

  /** On a token the strict decoder accepts, the lenient loop emits the same octets. */
  lemma {:induction false} RunExtendsStrict(s: string, out: seq<byte>)
    ensures StrictDecode(s).Some? ==> Run(s, 0, 0, 0, out) == Some(out + StrictDecode(s).value)
    decreases |s|
  {
    if StrictDecode(s).Some? {
      if |s| == 0 {
        assert out + [] == out;
      } else if |s| == 4 {
        RunLast(s, out);
      } else {
        var group := DecodeFull(s[..4]).value;
        var rest := StrictDecode(s[4..]).value;
        assert s == s[..4] + s[4..];
        RunGroup(s[..4], s[4..], out);
        RunExtendsStrict(s[4..], out + group);
        assert out + group + rest == out + (group + rest);
      }
    }
  }

  lemma RunAgreesWithStrict(s: string)
    ensures StrictDecode(s).Some? ==> Run(s, 0, 0, 0, []) == StrictDecode(s)
  {
    RunExtendsStrict(s, []);
    if StrictDecode(s).Some? {
      assert [] + StrictDecode(s).value == StrictDecode(s).value;
    }
  }

  /** A token the strict decoder accepts is ASCII throughout. */
  lemma {:induction false} StrictIsAscii(s: string)
    ensures StrictDecode(s).Some? ==> forall i :: 0 <= i < |s| ==> IsAscii(s[i])
    decreases |s|
  {
    if StrictDecode(s).Some? && |s| > 0 {
      var q := s[..4];
      assert forall k :: 0 <= k < 4 ==> ValueOf(q[k]).Some? || q[k] == '=';
      if |s| > 4 {
        StrictIsAscii(s[4..]);
        assert forall i :: 4 <= i < |s| ==> s[i] == s[4..][i - 4];
      }
    }
  }

  /** `b64decode` gives back every octet string from its base64 encoding. */
  lemma DecodeEncode(b: seq<byte>)
    ensures Decode(Encode(b)) == Some(b)
  {
    StrictDecodeEncode(b);
  }

  // What the lenient decoder accepts that the strict one refuses, and what it
  // still refuses.

  /** Pad characters before two digits of a group are skipped. */
  lemma PadsOnly()
    ensures Decode("====") == Some([])
  {
  }

  /** Excess padding after a complete group is skipped. */
  lemma ExcessPad()
    ensures Decode("QUJD=") == Some([65, 66, 67])
  {
    assert "QUJD=" == "QUJD" + "=";
    RunGroup("QUJD", "=", []);
    assert DecodeFull("QUJD") == Some([65, 66, 67]);
    assert "="[1..] == "";
    assert Run("=", 0, 0, 0, [65, 66, 67]) == Some([65, 66, 67]);
    assert [] + [65, 66, 67] == [65, 66, 67];
  }

  /** Anything after the pads that complete a group is ignored. */
  lemma DataAfterPad()
    ensures Decode("QQ==QUJD") == Some([65])
  {
    var t := "QQ==QUJD";
    assert t[1..] == "Q==QUJD" && t[2..] == "==QUJD" && t[3..] == "=QUJD";
    assert ValueOf('Q') == Some(16);
    assert Run(t, 0, 0, 0, []) == Run(t[1..], 1, 16, 0, []);
    assert t[1..][0] == 'Q' && t[1..][1..] == t[2..];
    assert [] + [65] == [65];
    assert Run(t[1..], 1, 16, 0, []) == Run(t[2..], 2, 0, 0, [65]);
    assert Run(t[2..], 2, 0, 0, [65]) == Run(t[3..], 2, 0, 1, [65]);
  }

  /** An ASCII character outside the alphabet is skipped. */
  lemma SkipsNonAlphabet()
    ensures Decode("Q!Q==") == Some([65])
  {
    var t := "Q!Q==";
    assert t[1..] == "!Q==" && t[2..] == "Q==" && t[3..] == "==";
    assert ValueOf('Q') == Some(16) && ValueOf('!') == None;
    assert Run(t, 0, 0, 0, []) == Run(t[1..], 1, 16, 0, []);
    assert Run(t[1..], 1, 16, 0, []) == Run(t[2..], 1, 16, 0, []);
    assert t[2..][0] == 'Q' && t[2..][1..] == t[3..];
    assert [] + [65] == [65];
    assert Run(t[2..], 1, 16, 0, []) == Run(t[3..], 2, 0, 0, [65]);
  }

  /** A character that is neither in the alphabet nor `=` is skipped wherever it
      stands and whatever state the loop is in: the run over the text with it equals
      the run over the text without it. */
  lemma {:induction false} RunSkipsNonAlphabet(a: string, c: char, b: string, quad: nat, left: nat, pads: nat, out: seq<byte>)
    requires Carry(quad, left)
    requires c != '=' && !IsAlphabet(c)
    ensures Run(a + [c] + b, quad, left, pads, out) == Run(a + b, quad, left, pads, out)
    decreases |a|
  {
    var x, y := a + [c] + b, a + b;
    if |a| == 0 {
      assert x[0] == c && x[1..] == b && y == b;
    } else {
      assert x[0] == a[0] && y[0] == a[0];
      assert x[1..] == a[1..] + [c] + b && y[1..] == a[1..] + b;
      if a[0] == '=' {
        if !(quad >= 2 && quad + pads + 1 >= 4) {
          RunSkipsNonAlphabet(a[1..], c, b, quad, left, if quad >= 2 then pads + 1 else pads, out);
        }
      } else {
        match ValueOf(a[0])
        case None =>
          RunSkipsNonAlphabet(a[1..], c, b, quad, left, pads, out);
        case Some(v) =>
          if quad == 0 {
            RunSkipsNonAlphabet(a[1..], c, b, 1, v, 0, out);
          } else if quad == 1 {
            RunSkipsNonAlphabet(a[1..], c, b, 2, v % 16, 0, out + [left * 4 + v / 16]);
          } else if quad == 2 {
            RunSkipsNonAlphabet(a[1..], c, b, 3, v % 4, 0, out + [left * 16 + v / 4]);
          } else {
            RunSkipsNonAlphabet(a[1..], c, b, 0, 0, 0, out + [left * 64 + v]);
          }
      }
    }
  }

  /** `b64decode` ignores an ASCII character outside the alphabet wherever it stands. */
  lemma DecodeSkipsNonAlphabet(a: string, c: char, b: string)
    requires IsAscii(c) && c != '=' && !IsAlphabet(c)
    ensures Decode(a + [c] + b) == Decode(a + b)
  {
    var x, y := a + [c] + b, a + b;
    RunSkipsNonAlphabet(a, c, b, 0, 0, 0, []);
    if forall i :: 0 <= i < |x| ==> IsAscii(x[i]) {
      forall i | 0 <= i < |y|
        ensures IsAscii(y[i])
      {
        if i < |a| {
          assert y[i] == x[i];
        } else {
          assert y[i] == x[i + 1];
        }
      }
    } else {
      var i :| 0 <= i < |x| && !IsAscii(x[i]);
      if i < |a| {
        assert y[i] == x[i];
      } else {
        assert i > |a| && y[i - 1] == x[i];
      }
    }
  }

  /** The number of alphabet characters in `s`. */
  function AlphaCount(s: string): nat {
    if |s| == 0 then 0 else (if IsAlphabet(s[0]) then 1 else 0) + AlphaCount(s[1..])
  }

  /** Without any `=`, the loop succeeds exactly when the digits it reads, counted
      from the current group's start, close the last group: a partial group at the
      end is an error. */
  lemma {:induction false} RunWithoutPads(s: string, quad: nat, left: nat, pads: nat, out: seq<byte>)
    requires Carry(quad, left)
    requires '=' !in s
    ensures Run(s, quad, left, pads, out).Some? <==> (quad + AlphaCount(s)) % 4 == 0
    decreases |s|
  {
    if |s| > 0 {
      assert s[0] != '=' && '=' !in s[1..];
      match ValueOf(s[0])
      case None =>
        RunWithoutPads(s[1..], quad, left, pads, out);
      case Some(v) =>
        if quad == 0 {
          RunWithoutPads(s[1..], 1, v, 0, out);
        } else if quad == 1 {
          RunWithoutPads(s[1..], 2, v % 16, 0, out + [left * 4 + v / 16]);
        } else if quad == 2 {
          RunWithoutPads(s[1..], 3, v % 4, 0, out + [left * 16 + v / 4]);
        } else {
          RunWithoutPads(s[1..], 0, 0, 0, out + [left * 64 + v]);
        }
    }
  }

  /** `b64decode` of ASCII text without padding succeeds exactly when its alphabet
      characters make whole groups of four; a partial group raises. */
  lemma DecodeWithoutPads(s: string)
    requires '=' !in s
    requires forall i :: 0 <= i < |s| ==> IsAscii(s[i])
    ensures Decode(s).Some? <==> AlphaCount(s) % 4 == 0
  {
    RunWithoutPads(s, 0, 0, 0, []);
  }

  /** A group at a group boundary that ends in `==` emits one octet built from its
      first digit and the top two bits of its second, and ends the decoding, whatever
      follows. */
  lemma RunDoublePadGroup(v0: sextet, v1: sextet, t: string, out: seq<byte>)
    ensures Run([CharOf(v0), CharOf(v1), '=', '='] + t, 0, 0, 0, out) == Some(out + [v0 * 4 + v1 / 16])
  {
    var x := [CharOf(v0), CharOf(v1), '=', '='] + t;
    ValueOfCharOf(v0);
    ValueOfCharOf(v1);
    CharOfIsNotPad(v0);
    CharOfIsNotPad(v1);
    assert x[0] == CharOf(v0) && x[1..][0] == CharOf(v1) && x[1..][1..] == x[2..];
    assert x[2..][0] == '=' && x[2..][1..] == x[3..] && x[3..][0] == '=';
    var o1 := out + [v0 * 4 + v1 / 16];
    assert Run(x, 0, 0, 0, out) == Run(x[1..], 1, v0, 0, out);
    assert Run(x[1..], 1, v0, 0, out) == Run(x[2..], 2, v1 % 16, 0, o1);
    assert Run(x[2..], 2, v1 % 16, 0, o1) == Run(x[3..], 2, v1 % 16, 1, o1);
  }

  /** A group at a group boundary that ends in a single `=` emits two octets, using
      only the top four bits of its third digit, and ends the decoding, whatever
      follows. */
  lemma RunSinglePadGroup(v0: sextet, v1: sextet, v2: sextet, t: string, out: seq<byte>)
    ensures Run([CharOf(v0), CharOf(v1), CharOf(v2), '='] + t, 0, 0, 0, out)
         == Some(out + [v0 * 4 + v1 / 16, (v1 % 16) * 16 + v2 / 4])
  {
    var x := [CharOf(v0), CharOf(v1), CharOf(v2), '='] + t;
    ValueOfCharOf(v0);
    ValueOfCharOf(v1);
    ValueOfCharOf(v2);
    CharOfIsNotPad(v0);
    CharOfIsNotPad(v1);
    CharOfIsNotPad(v2);
    assert x[0] == CharOf(v0) && x[1..][0] == CharOf(v1) && x[1..][1..] == x[2..];
    assert x[2..][0] == CharOf(v2) && x[2..][1..] == x[3..] && x[3..][0] == '=';
    var o1 := out + [v0 * 4 + v1 / 16];
    var o2 := o1 + [(v1 % 16) * 16 + v2 / 4];
    assert Run(x, 0, 0, 0, out) == Run(x[1..], 1, v0, 0, out);
    assert Run(x[1..], 1, v0, 0, out) == Run(x[2..], 2, v1 % 16, 0, o1);
    assert Run(x[2..], 2, v1 % 16, 0, o1) == Run(x[3..], 3, v2 % 4, 0, o2);
    assert Run(x[3..], 3, v2 % 4, 0, o2) == Some(o2);
    assert o2 == out + [v0 * 4 + v1 / 16, (v1 % 16) * 16 + v2 / 4];
  }

  /** The unused low bits of a padded group's last digit are dropped: two padded
      groups whose last digits agree in the bits that are used decode alike, whatever
      ASCII text follows the pads. */
  lemma DropsLowBitsOfPaddedGroups(v0: sextet, v1: sextet, w1: sextet, v2: sextet, w2: sextet, t: string)
    requires forall i :: 0 <= i < |t| ==> IsAscii(t[i])
    requires v1 / 16 == w1 / 16
    ensures Decode([CharOf(v0), CharOf(v1), '=', '='] + t) == Decode([CharOf(v0), CharOf(w1), '=', '='] + t)
                                                         == Some([v0 * 4 + v1 / 16])
    ensures v2 / 4 == w2 / 4 ==>
              Decode([CharOf(v0), CharOf(v1), CharOf(v2), '='] + t)
              == Decode([CharOf(v0), CharOf(v1), CharOf(w2), '='] + t)
  {
    RunDoublePadGroup(v0, v1, t, []);
    RunDoublePadGroup(v0, w1, t, []);
    RunSinglePadGroup(v0, v1, v2, t, []);
    RunSinglePadGroup(v0, v1, w2, t, []);
    AsciiGroup([CharOf(v0), CharOf(v1), '=', '='], t);
    AsciiGroup([CharOf(v0), CharOf(w1), '=', '='], t);
    AsciiGroup([CharOf(v0), CharOf(v1), CharOf(v2), '='], t);
    AsciiGroup([CharOf(v0), CharOf(v1), CharOf(w2), '='], t);
    assert [] + [v0 * 4 + v1 / 16] == [v0 * 4 + v1 / 16];
  }

  /** Four alphabet or pad characters followed by ASCII text are ASCII throughout. */
  lemma AsciiGroup(q: string, t: string)
    requires |q| == 4 && forall k :: 0 <= k < 4 ==> ValueOf(q[k]).Some? || q[k] == '='
    requires forall i :: 0 <= i < |t| ==> IsAscii(t[i])
    ensures forall i :: 0 <= i < |q + t| ==> IsAscii((q + t)[i])
  {
    assert forall i :: 4 <= i < |q + t| ==> (q + t)[i] == t[i - 4];
  }

  /** The unused low bits of the last digit are dropped: `R` and `Q` differ only
      there. */
  lemma DropsLowBits()
    ensures Decode("QR==") == Some([65])
  {
    assert StrictDecode("QR==") == Some([65]);
  }

  /** A single leftover digit, and a group left open without its pads, raise. */
  lemma IncompleteGroups()
    ensures Decode("QUJDQ") == None
    ensures Decode("QQ") == None
  {
    assert AlphaCount("QUJDQ") == 5 && AlphaCount("QQ") == 2;
    DecodeWithoutPads("QUJDQ");
    DecodeWithoutPads("QQ");
  }
}

=== FILE: bytes.dfy ===
/** Octets, as Python's `bytes` holds them. */
module Bytes {

  /** One octet. */
  type byte = x: int | 0 <= x < 256
}

=== FILE: consumables.dfy ===
/** The withdrawal cart of NEMO/views/consumables.py: a list of withdrawals held in
    the session, the commit that turns it into withdrawal records and stock changes,
    and the two permission rules of the recurring-charges pages. The session, the
    database tables and the clock are plain values here. */
module Consumables {
  import opened Wrappers
  import Text
  import opened Authentication

  /** One cart line, as `add_withdraw_to_session` stores it: display strings for the
      customer, consumable and project, their ids, and the quantity. */
  datatype CartEntry = CartEntry(
    customer: string, customerId: int,
    consumable: string, consumableId: int,
    project: string, projectId: int,
    quantity: int)

  /** `request.session['withdrawals']`; `None` when the key is absent. */
  type Cart = Option<seq<CartEntry>>

  /** The entries of a cart, an absent cart having none. */
  function Entries(cart: Cart): seq<CartEntry> {
    cart.GetOr([])
  }

  // ----- the cart ---------------------------------------------------------------

  /** `add_withdraw_to_session`: a missing cart is first created empty, then the new
      entry goes at the end; the entries already there stay, in their order. */
  function AddWithdrawal(cart: Cart, entry: CartEntry): (r: Cart)
    ensures r.Some?
    ensures |r.value| == |Entries(cart)| + 1
    ensures r.value[..|Entries(cart)|] == Entries(cart)
    ensures r.value[|Entries(cart)|] == entry
  {
    Some(Entries(cart) + [entry])
  }

  /** Python's reading of `i` as a position in a list of length `n`: a negative index
      counts from the end, and anything outside `-n <= i < n` is an `IndexError`. */
  function PythonIndex(i: int, n: nat): (r: Option<nat>)
    ensures r.Some? <==> -(n as int) <= i < n
    ensures r.Some? && i >= 0 ==> r.value == i
    ensures r.Some? && i < 0 ==> r.value == i + n
  {
    if 0 <= i < n then Some(i)
    else if -(n as int) <= i < 0 then Some(i + n)
    else None
  }

  /** `xs` without its element at position `k`. */
  function Without<T>(xs: seq<T>, k: nat): (r: seq<T>)
    requires k < |xs|
    ensures |r| == |xs| - 1
    ensures forall j :: 0 <= j < k ==> r[j] == xs[j]
    ensures forall j :: k <= j < |r| ==> r[j] == xs[j + 1]
    ensures multiset(r) + multiset{xs[k]} == multiset(xs)
  {
    assert xs == xs[..k] + [xs[k]] + xs[k + 1..];
    xs[..k] + xs[k + 1..]
  }

  /** `remove_withdraw_at_index`: `index` arrives as URL text and is read with
      `int()`. A well-formed index within range, counted from the end when
      negative, deletes exactly that entry. Text that is not an integer, an index out
      of range, or an empty or absent cart leaves the cart as it was: the exception
      is logged and swallowed. */
  function RemoveWithdrawalAtIndex(cart: Cart, index: string): (r: Cart)
    ensures Text.ParseInt(index).None? ==> r == cart
    ensures |Entries(cart)| == 0 ==> r == cart
    ensures Text.ParseInt(index).Some? && PythonIndex(Text.ParseInt(index).value, |Entries(cart)|).None? ==> r == cart
    ensures Text.ParseInt(index).Some? && |Entries(cart)| > 0 ==>
              match PythonIndex(Text.ParseInt(index).value, |Entries(cart)|)
              case None => r == cart
              case Some(k) => r == Some(Without(cart.value, k))
  {
    match Text.ParseInt(index)
    case None => cart
    case Some(i) =>
      if cart.None? || |cart.value| == 0 then cart
      else
        match PythonIndex(i, |cart.value|)
        case None => cart
        case Some(k) => Some(Without(cart.value, k))
  }

  /** Removing at a negative index is removing at the same position counted from the
      front: `-1` is the last entry, `-len` the first. */
  lemma RemoveNegativeIndex(cart: Cart, k: nat)
    requires k < |Entries(cart)|
    requires |Text.Digits(|Entries(cart)|)| <= Text.MaxStrDigits
    ensures RemoveWithdrawalAtIndex(cart, Text.Decimal(k - |Entries(cart)|))
         == RemoveWithdrawalAtIndex(cart, Text.Decimal(k))
    ensures RemoveWithdrawalAtIndex(cart, Text.Decimal(k)) == Some(Without(Entries(cart), k))
  {
    Text.DigitsMonotone(k, |Entries(cart)|);
    Text.DigitsMonotone(Text.Magnitude(k - |Entries(cart)|), |Entries(cart)|);
    Text.ParseDecimal(k - |Entries(cart)|);
    Text.ParseDecimal(k);
  }

  /** An index of more than `Text.MaxStrDigits` digits makes `int()` raise, so the
      cart is left as it was, even when the digits spell a valid index such as 0. */
  lemma OverlongIndexKeepsCart(cart: Cart, d: string)
    requires Text.AllDigits(d) && |d| > Text.MaxStrDigits
    ensures RemoveWithdrawalAtIndex(cart, d) == cart
  {
    Text.TooManyDigits(d);
  }

  /** An index text that starts or ends with one of the ASCII separators
      U+001C..U+001F is not an integer to `int()`, so the cart is left as it was,
      whatever digits the rest of the text holds. */
  lemma SeparatorIndexKeepsCart(cart: Cart, c: char, t: string)
    requires '\U{1C}' <= c <= '\U{1F}'
    ensures RemoveWithdrawalAtIndex(cart, [c] + t) == cart
    ensures RemoveWithdrawalAtIndex(cart, t + [c]) == cart
  {
    Text.SeparatorIsNotNumber(c, t);
  }

  /** Removing at `-1` right after an add takes back exactly the entry added: the
      cart holds what it held before, now present even if it was absent. */
  lemma AddThenRemoveLast(cart: Cart, entry: CartEntry)
    ensures RemoveWithdrawalAtIndex(AddWithdrawal(cart, entry), Text.Decimal(-1)) == Some(Entries(cart))
  {
    Text.ParseDecimal(-1);
    var xs := Entries(cart) + [entry];
    assert Without(xs, |xs| - 1) == Entries(cart);
  }

  /** `clear_withdrawals`: the cart key is removed, whether or not it was there; so
      clearing twice is clearing once. */
  function ClearWithdrawals(cart: Cart): (r: Cart)
    ensures r == None
    ensures Entries(r) == []
  {
    None
  }

  /** After a clear the cart starts over: the next add makes a cart of that entry
      alone, and clearing again changes nothing. */
  lemma ClearThenAdd(cart: Cart, entry: CartEntry)
    ensures AddWithdrawal(ClearWithdrawals(cart), entry) == Some([entry])
    ensures ClearWithdrawals(ClearWithdrawals(cart)) == ClearWithdrawals(cart)
  {
  }

  // ----- stock and commit -------------------------------------------------------

  /** The part of a consumable row the withdrawal touches. */
  datatype Consumable = Consumable(name: string, reusable: bool, quantity: int)

  /** The consumable table, keyed by id. */
  type Stock = map<int, Consumable>

  /** A `ConsumableWithdraw` row. */
  datatype Withdrawal = Withdrawal(consumableId: int, quantity: int, merchant: User, customerId: int, projectId: int)

  /** The `IntegrityError` `ConsumableWithdraw.objects.create` raises when a foreign
      key of the new row names no row: the consumable, the customer or the project
      the cart entry refers to. */
  datatype WithdrawError =
    | ConsumableDoesNotExist(id: int)
    | CustomerDoesNotExist(id: int)
    | ProjectDoesNotExist(id: int)

  /** The ids of the rows a withdrawal may refer to: the consumable table's keys, and
      the existing customers and projects. */
  predicate Known(stock: Stock, customers: set<int>, projects: set<int>, consumableId: int, customerId: int, projectId: int) {
    consumableId in stock && customerId in customers && projectId in projects
  }

  /** `error` names a reference of the new row that exists nowhere. Which one the
      database names when several are missing is its own choice. */
  predicate Reports(error: WithdrawError, stock: Stock, customers: set<int>, projects: set<int>, consumableId: int, customerId: int, projectId: int) {
    match error
    case ConsumableDoesNotExist(id) => id == consumableId && id !in stock
    case CustomerDoesNotExist(id) => id == customerId && id !in customers
    case ProjectDoesNotExist(id) => id == projectId && id !in projects
  }

  /** The stock rule: a reusable consumable keeps its quantity; any other loses
      `taken`, with no lower bound. */
  function Withdrawn(c: Consumable, taken: int): (r: Consumable)
    ensures r.name == c.name && r.reusable == c.reusable
    ensures c.reusable ==> r.quantity == c.quantity
    ensures !c.reusable ==> r.quantity + taken == c.quantity
  {
    if c.reusable then c else c.(quantity := c.quantity - taken)
  }

  /** `make_withdrawal`: records one withdrawal and updates the consumable's stock.
      Creating the row raises when the consumable, the customer or the project does
      not exist, and then nothing changes. Otherwise only that consumable changes, and
      a reusable one does not change at all. */
  function MakeWithdrawal(
    stock: Stock, customers: set<int>, projects: set<int>,
    consumableId: int, quantity: int, projectId: int, merchant: User, customerId: int)
    : (r: Result<(Stock, Withdrawal), WithdrawError>)
    ensures r.Failure? <==> !Known(stock, customers, projects, consumableId, customerId, projectId)
    ensures r.Failure? ==> Reports(r.error, stock, customers, projects, consumableId, customerId, projectId)
    ensures r.Success? ==> r.value.1 == Withdrawal(consumableId, quantity, merchant, customerId, projectId)
    ensures r.Success? ==> r.value.0.Keys == stock.Keys
    ensures r.Success? ==> forall id :: id in stock && id != consumableId ==> r.value.0[id] == stock[id]
    ensures r.Success? && stock[consumableId].reusable ==> r.value.0 == stock
    ensures r.Success? && !stock[consumableId].reusable ==>
              r.value.0[consumableId].quantity == stock[consumableId].quantity - quantity
  {
    if consumableId !in stock then Failure(ConsumableDoesNotExist(consumableId))
    else if customerId !in customers then Failure(CustomerDoesNotExist(customerId))
    else if projectId !in projects then Failure(ProjectDoesNotExist(projectId))
    else
      var record := Withdrawal(consumableId, quantity, merchant, customerId, projectId);
      Success((stock[consumableId := Withdrawn(stock[consumableId], quantity)], record))
  }

  /** The total quantity the entries take of consumable `id`. */
  function TotalFor(xs: seq<CartEntry>, id: int): int {
    if |xs| == 0 then 0
    else TotalFor(xs[..|xs| - 1], id) + (if xs[|xs| - 1].consumableId == id then xs[|xs| - 1].quantity else 0)
  }

  /** The record `make_withdrawals` creates for one cart entry. */
  function RecordOf(e: CartEntry, merchant: User): Withdrawal {
    Withdrawal(e.consumableId, e.quantity, merchant, e.customerId, e.projectId)
  }

  /** Every row the entry refers to exists. */
  predicate EntryKnown(e: CartEntry, stock: Stock, customers: set<int>, projects: set<int>) {
    Known(stock, customers, projects, e.consumableId, e.customerId, e.projectId)
  }

  /** The index of the first entry that refers to a consumable, customer or project
      that does not exist, if any. */
  function FirstMissing(xs: seq<CartEntry>, stock: Stock, customers: set<int>, projects: set<int>): (r: Option<nat>)
    ensures r.None? <==> forall j :: 0 <= j < |xs| ==> EntryKnown(xs[j], stock, customers, projects)
    ensures r.Some? ==> r.value < |xs| && !EntryKnown(xs[r.value], stock, customers, projects)
    ensures r.Some? ==> forall j :: 0 <= j < r.value ==> EntryKnown(xs[j], stock, customers, projects)
  {
    if |xs| == 0 then None
    else if !EntryKnown(xs[0], stock, customers, projects) then Some(0)
    else match FirstMissing(xs[1..], stock, customers, projects)
      case None => None
      case Some(k) => Some(k + 1)
  }

  /** What `make_withdrawals` leaves behind: the cart, the stock, the withdrawal
      records created, and the exception that stopped it, if one did. */
  datatype CommitOutcome = CommitOutcome(cart: Cart, stock: Stock, records: seq<Withdrawal>, error: Option<WithdrawError>)

  /** `make_withdrawals`: one `make_withdrawal` per cart entry, in cart order, then
      the cart is deleted. Afterwards every non-reusable consumable has lost the sum
      of the quantities of its entries, and reusable ones are untouched. An entry
      that refers to a consumable, customer or project that no longer exists raises:
      the entries before it stay committed and the cart is kept. */
  method MakeWithdrawals(cart: Cart, stock: Stock, customers: set<int>, projects: set<int>, merchant: User)
    returns (out: CommitOutcome)
    ensures out.stock.Keys == stock.Keys
    ensures var xs := Entries(cart);
            FirstMissing(xs, stock, customers, projects).None? ==>
              && out.error.None?
              && out.cart == ClearWithdrawals(cart)
              && |out.records| == |xs|
              && (forall j :: 0 <= j < |xs| ==> out.records[j] == RecordOf(xs[j], merchant))
              && (forall id :: id in stock ==> out.stock[id] == Withdrawn(stock[id], TotalFor(xs, id)))
    ensures var xs := Entries(cart);
            FirstMissing(xs, stock, customers, projects).Some? ==>
              var k := FirstMissing(xs, stock, customers, projects).value;
              && out.error.Some?
              && Reports(out.error.value, stock, customers, projects, xs[k].consumableId, xs[k].customerId, xs[k].projectId)
              && out.cart == Some(xs)
              && |out.records| == k
              && (forall j :: 0 <= j < k ==> out.records[j] == RecordOf(xs[j], merchant))
              && (forall id :: id in stock ==> out.stock[id] == Withdrawn(stock[id], TotalFor(xs[..k], id)))
  {
    var xs := Entries(cart);
    var current := stock;
    var records: seq<Withdrawal> := [];
    var i := 0;
    while i < |xs|
      invariant i <= |xs|
      invariant current.Keys == stock.Keys
      invariant forall j :: 0 <= j < i ==> EntryKnown(xs[j], stock, customers, projects)
      invariant |records| == i
      invariant forall j :: 0 <= j < i ==> records[j] == RecordOf(xs[j], merchant)
      invariant forall id :: id in stock ==> current[id] == Withdrawn(stock[id], TotalFor(xs[..i], id))
    {
      var e := xs[i];
      var made := MakeWithdrawal(current, customers, projects, e.consumableId, e.quantity, e.projectId, merchant, e.customerId);
      if made.Failure? {
        return CommitOutcome(Some(xs), current, records, Some(made.error));
      }
      assert xs[..i + 1][..i] == xs[..i];
      current := made.value.0;
      records := records + [made.value.1];
      i := i + 1;
    }
    assert xs[..i] == xs;
    out := CommitOutcome(None, current, records, None);
  }

  // ----- recurring charges --------------------------------------------------------

  /** `extended_permissions`: with recurring charges unlocked everybody has them; with
      them locked only facility managers and superusers do. */
  function ExtendedPermissions(lockCharges: bool, user: User): (r: bool)
    ensures !lockCharges ==> r
    ensures lockCharges ==> (r <==> user.isFacilityManager || user.isSuperuser)
  {
    !lockCharges || user.isFacilityManager || user.isSuperuser
  }

  /** The part of a `RecurringConsumableCharge` row the view reads: the local date
      (a day number) of the last charge, if any. */
  datatype RecurringCharge = RecurringCharge(lastCharge: Option<int>)

  /** The `can_charge` flag: charging is offered unless this charge was already made
      today. */
  function CanCharge(instance: Option<RecurringCharge>, today: int): (r: bool)
    ensures !r <==> instance.Some? && instance.value.lastCharge == Some(today)
  {
    instance.None? || instance.value.lastCharge.None? || instance.value.lastCharge.value != today
  }

  datatype ChargeResponse =
    | RedirectToLogin                          // `redirect("login")`
    | ChargeForm(locked: bool, canCharge: bool) // `recurring_charge.html`
    | Saved(charged: bool)                     // saved (and charged), then back to the list

  /** `create_recurring_charge`. A missing or zero id asks for a new charge, which
      needs extended permissions; otherwise the form is shown locked exactly when the
      user lacks them. A valid POST saves, and also charges when asked to. */
  function CreateRecurringCharge(
    chargeId: Option<int>, charges: map<int, RecurringCharge>, lockCharges: bool, user: User,
    today: int, isPost: bool, formValid: bool, saveAndCharge: bool): (r: ChargeResponse)
    ensures r == RedirectToLogin <==>
              (chargeId.None? || chargeId == Some(0)) && !ExtendedPermissions(lockCharges, user)
    ensures r.ChargeForm? ==> r.locked == !ExtendedPermissions(lockCharges, user)
    ensures r.ChargeForm? ==>
              var instance := if chargeId.Some? && chargeId.value in charges then Some(charges[chargeId.value]) else None;
              (r.canCharge <==> !(instance.Some? && instance.value.lastCharge == Some(today)))
    ensures r.Saved? <==> r != RedirectToLogin && isPost && formValid
    ensures r.Saved? ==> r.charged == saveAndCharge
  {
    var instance := if chargeId.Some? && chargeId.value in charges then Some(charges[chargeId.value]) else None;
    var locked := !ExtendedPermissions(lockCharges, user);
    if (chargeId.None? || chargeId == Some(0)) && locked then RedirectToLogin
    else if isPost && formValid then Saved(saveAndCharge)
    else ChargeForm(locked, CanCharge(instance, today))
  }

  /** Turning the lock on only ever takes extended permissions away, and never from
      a facility manager or a superuser. */
  lemma LockOnlyRestricts(user: User)
    ensures ExtendedPermissions(true, user) ==> ExtendedPermissions(false, user)
    ensures user.isFacilityManager || user.isSuperuser ==>
              ExtendedPermissions(true, user) && ExtendedPermissions(false, user)
  {
  }

  /** A charge never charged, or last charged on another day, can be charged; one
      charged today cannot until the day changes. */
  lemma CanChargeByDate(lastCharge: Option<int>, today: int)
    ensures CanCharge(Some(RecurringCharge(lastCharge)), today) <==> lastCharge != Some(today)
    ensures CanCharge(None, today)
  {
  }

  /** The login redirect looks only at the id argument, not at whether a charge with
      that id exists. Any non-zero id, even one no charge has, reaches the form (locked
      when the user lacks extended permissions), and a valid POST is saved. An id no
      charge has shows the form as a new, chargeable charge. */
  lemma NonZeroIdReachesForm(
    id: int, charges: map<int, RecurringCharge>, lockCharges: bool, user: User,
    today: int, isPost: bool, formValid: bool, saveAndCharge: bool)
    requires id != 0
    ensures var r := CreateRecurringCharge(Some(id), charges, lockCharges, user, today, isPost, formValid, saveAndCharge);
            && r != RedirectToLogin
            && (isPost && formValid ==> r == Saved(saveAndCharge))
            && (!(isPost && formValid) && id !in charges ==>
                  r == ChargeForm(!ExtendedPermissions(lockCharges, user), true))
  {
  }
}

=== FILE: ldap.dfy ===
/** The control flow of `LDAPAuthenticationBackend.authenticate`
    (NEMO/views/authentication.py): the checks made before any directory is contacted,
    the bind name each server is asked to accept, and the ordered walk over the
    configured servers in which the first successful bind wins. What a directory answers
    to a search or a bind is an oracle carried with each server. */
module Ldap {
  import opened Wrappers
  import opened Authentication

  /** The two kinds of `ldap3` exception the backend tells apart. */
  datatype LdapError = LdapBindError | OtherLdapError

  /** The credentials of the service-account connection used before a search. */
  datatype Credentials = Anonymous | Simple(name: string, password: string)

  /** What the service-account bind and the user search produce: the user's entry
      (its DN), no usable result, or an exception on the way. */
  datatype SearchOutcome = Found(dn: string) | NoResults | SearchRaised(error: LdapError)

  /** What a bind as a given name with a given password produces. */
  datatype BindOutcome = Bound | BindRaised(error: LdapError)

  /** The directory behind one server: it answers a search made under some service
      credentials for a username, and a bind as a name with a password. */
  datatype Directory = Directory(
    search: (Credentials, string) -> SearchOutcome,
    bind: (string, string) -> BindOutcome)

  /** One entry of `settings.LDAP_SERVERS`, as far as the control flow reads it. An
      empty string stands for a setting that is absent or empty (both are falsy). */
  datatype ServerConfig = ServerConfig(
    url: string,
    domain: string,
    bindAsAuthentication: bool,
    bindUsername: string,
    bindPassword: string)

  datatype LdapServer = LdapServer(config: ServerConfig, directory: Directory)

  /** Why one server did not authenticate the user; each becomes one error line. */
  datatype ServerFailure = SearchMiss | IncorrectPassword | LdapFailure

  /** The result of trying one server. */
  datatype ServerOutcome = Authenticated(boundAs: string) | Failed(reason: ServerFailure)

  /** The failure an `ldap3` exception is recorded as: `LDAPBindError` is caught by the
      first handler, every other `LDAPException` by the second. */
  function FailureOf(e: LdapError): (f: ServerFailure)
    ensures f != SearchMiss
    ensures f == IncorrectPassword <==> e == LdapBindError
    ensures f == LdapFailure <==> e == OtherLdapError
  {
    match e
    case LdapBindError => IncorrectPassword
    case OtherLdapError => LdapFailure
  }

  /** `DOMAIN\name` when the server has a domain, otherwise the name alone. */
  function Qualified(domain: string, name: string): (r: string)
    ensures domain == "" ==> r == name
    ensures domain != "" ==> r == domain + "\\" + name
  {
    if domain != "" then domain + "\\" + name else name
  }

  /** The service account: a simple bind (its name domain-qualified when both domain
      and name are set) when both name and password are configured, else anonymous. */
  function ServiceCredentials(c: ServerConfig): (r: Credentials)
    ensures r.Simple? <==> c.bindUsername != "" && c.bindPassword != ""
    ensures r.Simple? ==> r.name == Qualified(c.domain, c.bindUsername) && r.password == c.bindPassword
  {
    var name := if c.domain != "" && c.bindUsername != "" then c.domain + "\\" + c.bindUsername
                else c.bindUsername;
    if name != "" && c.bindPassword != "" then Simple(name, c.bindPassword) else Anonymous
  }

  /** The name the user is bound as: in bind-as-authentication mode the username,
      domain-qualified when a domain is configured; in search mode the DN the search
      returned, which replaces it. `None` when the search produced no entry. */
  function UserBindName(s: LdapServer, username: string): (r: Option<string>)
    ensures s.config.bindAsAuthentication ==> r == Some(Qualified(s.config.domain, username))
    ensures !s.config.bindAsAuthentication ==>
              (r.Some? <==> s.directory.search(ServiceCredentials(s.config), username).Found?)
    ensures !s.config.bindAsAuthentication && r.Some? ==>
              r.value == s.directory.search(ServiceCredentials(s.config), username).dn
  {
    if s.config.bindAsAuthentication then Some(Qualified(s.config.domain, username))
    else
      match s.directory.search(ServiceCredentials(s.config), username)
      case Found(dn) => Some(dn)
      case _ => None
  }

  /** One iteration of the server loop. The user is authenticated by this server
      exactly when the bind as `UserBindName` with the user's password succeeds; a
      search that finds nothing fails without any bind as the user. */
  function AttemptServer(s: LdapServer, username: string, password: string): (r: ServerOutcome)
    ensures r.Authenticated? <==>
              UserBindName(s, username).Some? && s.directory.bind(UserBindName(s, username).value, password) == Bound
    ensures r.Authenticated? ==> r.boundAs == UserBindName(s, username).value
    ensures r == Failed(SearchMiss) <==>
              !s.config.bindAsAuthentication && s.directory.search(ServiceCredentials(s.config), username) == NoResults
    // Any other failure is the exception the search or the user's bind raised.
    ensures r.Failed? && r.reason != SearchMiss ==>
              var found := s.directory.search(ServiceCredentials(s.config), username);
              || (!s.config.bindAsAuthentication && found.SearchRaised? && r.reason == FailureOf(found.error))
              || (UserBindName(s, username).Some?
                  && s.directory.bind(UserBindName(s, username).value, password).BindRaised?
                  && r.reason == FailureOf(s.directory.bind(UserBindName(s, username).value, password).error))
  {
    var searched :=
      if s.config.bindAsAuthentication then Found(Qualified(s.config.domain, username))
      else s.directory.search(ServiceCredentials(s.config), username);
    match searched
    case NoResults => Failed(SearchMiss)
    case SearchRaised(e) => Failed(FailureOf(e))
    case Found(name) =>
      match s.directory.bind(name, password)
      case Bound => Authenticated(name)
      case BindRaised(e) => Failed(FailureOf(e))
  }

  predicate Succeeds(s: LdapServer, username: string, password: string) {
    AttemptServer(s, username, password).Authenticated?
  }

  /** The `for server in settings.LDAP_SERVERS` loop with its `break`. Servers are
      tried in order and the loop stops at the first that authenticates; `tried`
      counts the servers contacted, and `errors` holds, in order, the failure of every
      server tried without success. */
  method TryServers(servers: seq<LdapServer>, username: string, password: string)
    returns (authenticated: bool, tried: nat, errors: seq<ServerFailure>)
    ensures authenticated <==> exists i :: 0 <= i < |servers| && Succeeds(servers[i], username, password)
    ensures authenticated ==> 0 < tried <= |servers| && Succeeds(servers[tried - 1], username, password)
    ensures !authenticated ==> tried == |servers|
    ensures tried <= |servers| && |errors| == if authenticated then tried - 1 else tried
    ensures forall j :: 0 <= j < |errors| ==> !Succeeds(servers[j], username, password)
    ensures forall j :: 0 <= j < |errors| ==> errors[j] == AttemptServer(servers[j], username, password).reason
  {
    authenticated := false;
    tried := 0;
    errors := [];
    while tried < |servers|
      invariant tried <= |servers|
      invariant |errors| == tried
      invariant forall j :: 0 <= j < tried ==> !Succeeds(servers[j], username, password)
      invariant forall j :: 0 <= j < tried ==> errors[j] == AttemptServer(servers[j], username, password).reason
    {
      var outcome := AttemptServer(servers[tried], username, password);
      tried := tried + 1;
      if outcome.Authenticated? {
        authenticated := true;
        break;
      }
      errors := errors + [outcome.reason];
    }
  }

  /** What one call of the backend produces: its return value or exception, the
      number of servers contacted, and the error lines written to the log. */
  datatype LdapReply = LdapReply(result: Result<Option<User>, Exception>, contacted: nat, logged: seq<ServerFailure>)

  /** `LDAPAuthenticationBackend.authenticate`. An empty username or password returns
      no user at once; an unknown user raises `DoesNotExist` and an inactive one
      raises `InactiveUserError`, both before any server is contacted. Otherwise the
      user is returned exactly when some configured server authenticates them; the
      collected errors are logged only when none does. */
  method LdapAuthenticate(users: UserTable, servers: seq<LdapServer>, username: string, password: string)
    returns (reply: LdapReply)
    ensures username == "" || password == "" ==> reply == LdapReply(Success(None), 0, [])
    ensures username != "" && password != "" && username !in users ==>
              reply == LdapReply(Failure(UserDoesNotExist), 0, [])
    ensures username != "" && password != "" && username in users && !users[username].isActive ==>
              reply == LdapReply(Failure(InactiveUser), 0, [])
    ensures reply.result.Success? && reply.result.value.Some? ==>
              username in users && reply.result.value.value == users[username] && users[username].isActive
    ensures username != "" && password != "" && username in users && users[username].isActive ==>
              && reply.result.Success?
              && (reply.result.value.Some? <==> exists i :: 0 <= i < |servers| && Succeeds(servers[i], username, password))
    ensures reply.result.Success? && reply.result.value.Some? ==> reply.logged == []
    ensures reply.result == Success(None) && username != "" && password != "" ==>
              && reply.contacted == |servers|
              && |reply.logged| == |servers|
              && forall j :: 0 <= j < |servers| ==> reply.logged[j] == AttemptServer(servers[j], username, password).reason
  {
    if username == "" || password == "" {
      return LdapReply(Success(None), 0, []);
    }
    if username !in users {
      return LdapReply(Failure(UserDoesNotExist), 0, []);
    }
    var user := users[username];
    if !user.isActive {
      return LdapReply(Failure(InactiveUser), 0, []);
    }
    var authenticated, tried, errors := TryServers(servers, username, password);
    if authenticated {
      reply := LdapReply(Success(Some(user)), tried, []);
    } else {
      reply := LdapReply(Success(None), tried, errors);
    }
  }
}

=== FILE: login.dfy ===
/** The dispatch of the `login_user` view (NEMO/views/authentication.py). Django's
    `authenticate()` is an oracle from the posted credentials to the backend's answer,
    and URL resolution is an oracle saying whether a `next` path resolves. */
module Login {
  import opened Wrappers
  import opened Authentication

  const RemoteUserBackendPath := "NEMO.views.authentication.RemoteUserAuthenticationBackend"
  const NginxBackendPath := "NEMO.views.authentication.NginxKerberosAuthorizationHeaderAuthenticationBackend"

  /** True for the backends that authenticate in middleware, before the view runs. */
  predicate IsMiddlewareBackend(path: string) {
    path == RemoteUserBackendPath || path == NginxBackendPath
  }

  datatype HttpMethod = Get | Post | OtherMethod

  /** The parts of the request the view reads. A missing `username` or `password`
      form field reads as the empty string; `next` is the `next` query parameter. */
  datatype Request = Request(
    verb: HttpMethod,
    userIsAuthenticated: bool,
    username: string,
    password: string,
    next: Option<string>)

  /** Where a redirect goes: the `landing` page or a validated `next` path. */
  datatype Target = Landing | NextPage(path: string)

  datatype Response =
    | MethodNotAllowed                      // rejected by `require_http_methods`
    | Redirect(to: Target)                  // already authenticated by middleware
    | AuthorizationFailed                   // the `authorization_failed` page
    | LoginForm(incorrect: bool)            // `login.html`, with the incorrect-credentials flag
    | LoggedIn(user: User, to: Target)      // `login(request, user)` then a redirect
    | Raised(error: Exception)              // an exception the view does not catch

  /** The backends other than the two middleware ones. */
  function NonMiddlewareBackends(backends: seq<string>): (r: seq<string>)
    ensures |r| <= |backends|
    ensures forall i :: 0 <= i < |r| ==> r[i] in backends && !IsMiddlewareBackend(r[i])
    ensures forall b :: b in backends && !IsMiddlewareBackend(b) ==> b in r
  {
    if |backends| == 0 then []
    else if IsMiddlewareBackend(backends[0]) then NonMiddlewareBackends(backends[1..])
    else [backends[0]] + NonMiddlewareBackends(backends[1..])
  }

  /** True when a backend that authenticates in middleware is configured. */
  predicate HasMiddlewareBackend(backends: seq<string>) {
    RemoteUserBackendPath in backends || NginxBackendPath in backends
  }

  /** True when `login_user` gets past its middleware check to the login form: no
      middleware backend is configured, or the user is not yet authenticated and some
      other backend is there to check a password. */
  predicate ReachesForm(backends: seq<string>, request: Request) {
    request.verb != OtherMethod &&
    (!HasMiddlewareBackend(backends) ||
     (!request.userIsAuthenticated && |NonMiddlewareBackends(backends)| > 0))
  }

  /** Where a successful login redirects: `next` when present and resolvable. */
  function AfterLogin(request: Request, resolves: string -> bool): (t: Target)
    ensures t.NextPage? <==> request.next.Some? && resolves(request.next.value)
    ensures t.NextPage? ==> request.next == Some(t.path)
  {
    if request.next.Some? && resolves(request.next.value) then NextPage(request.next.value) else Landing
  }

  /** `login_user`. */
  function LoginUser(
    backends: seq<string>,
    request: Request,
    authenticate: (string, string) -> Result<Option<User>, Exception>,
    resolves: string -> bool): (r: Response)
    // Only GET and POST reach the view.
    ensures request.verb == OtherMethod <==> r == MethodNotAllowed
    // A middleware backend is configured and the view stops before the form: the user
    // is sent to the landing page when already authenticated, and refused otherwise
    // (no other backend could check a password).
    ensures request.verb != OtherMethod && !ReachesForm(backends, request) ==>
              && HasMiddlewareBackend(backends)
              && (r == Redirect(Landing) <==> request.userIsAuthenticated)
              && (r == AuthorizationFailed <==> !request.userIsAuthenticated)
    // A GET that reaches the form shows it blank.
    ensures ReachesForm(backends, request) && request.verb == Get ==> r == LoginForm(false)
    // A POST that reaches the form: Django's authenticate decides.
    ensures ReachesForm(backends, request) && request.verb == Post ==>
              match authenticate(request.username, request.password)
              case Success(Some(u)) => r == LoggedIn(u, AfterLogin(request, resolves))
              case Success(None) => r == LoginForm(true)
              case Failure(e) =>
                r == if e == UserDoesNotExist || e == InactiveUser then AuthorizationFailed else Raised(e)
    // A session is only ever opened for the user the posted credentials authenticate,
    // and the view only redirects to a `next` path that resolves.
    ensures r.LoggedIn? ==>
              request.verb == Post && authenticate(request.username, request.password) == Success(Some(r.user))
    ensures r.LoggedIn? && r.to.NextPage? ==> resolves(r.to.path) && request.next == Some(r.to.path)
  {
    if request.verb == OtherMethod then MethodNotAllowed
    else if RemoteUserBackendPath in backends || NginxBackendPath in backends then
      if request.userIsAuthenticated then Redirect(Landing)
      else if |NonMiddlewareBackends(backends)| == 0 then AuthorizationFailed
      else FormStep(request, authenticate, resolves)
    else FormStep(request, authenticate, resolves)
  }

  /** The part of `login_user` after the middleware check: the form and the POST. */
  function FormStep(
    request: Request,
    authenticate: (string, string) -> Result<Option<User>, Exception>,
    resolves: string -> bool): Response
    requires request.verb != OtherMethod
  {
    if request.verb == Get then LoginForm(false)
    else
      match authenticate(request.username, request.password)
      case Failure(UserDoesNotExist) => AuthorizationFailed
      case Failure(InactiveUser) => AuthorizationFailed
      case Failure(e) => Raised(e)
      case Success(None) => LoginForm(true)
      case Success(Some(user)) => LoggedIn(user, AfterLogin(request, resolves))
  }

  /** With only middleware backends configured, the login form is never shown: every
      GET or POST either goes to the landing page or is refused. */
  lemma MiddlewareOnlyNeverShowsForm(backends: seq<string>, request: Request,
                                     authenticate: (string, string) -> Result<Option<User>, Exception>,
                                     resolves: string -> bool)
    requires |backends| > 0 && forall i :: 0 <= i < |backends| ==> IsMiddlewareBackend(backends[i])
    requires request.verb != OtherMethod
    ensures LoginUser(backends, request, authenticate, resolves) in {Redirect(Landing), AuthorizationFailed}
  {
    assert IsMiddlewareBackend(backends[0]);
    NoOtherBackends(backends);
  }

  lemma {:induction false} NoOtherBackends(backends: seq<string>)
    requires forall i :: 0 <= i < |backends| ==> IsMiddlewareBackend(backends[i])
    ensures NonMiddlewareBackends(backends) == []
  {
    if |backends| > 0 {
      assert IsMiddlewareBackend(backends[0]);
      NoOtherBackends(backends[1..]);
    }
  }
}

=== FILE: text.dfy ===
/** The handful of Python `str` operations the views rely on: `str.split()` with no
    separator, `str.partition(sep)[0]`, and `int(text)` on a decimal string. */
module Text {
  import opened Wrappers

  /** Python's `str.isspace()`: the characters `str.split()` with no argument splits on
      (Unicode White_Space plus the ASCII information separators U+001C..U+001F). */
  predicate IsPythonSpace(c: char) {
    || ('\t' <= c <= '\r')
    || ('\U{1C}' <= c <= ' ')
    || c == '\U{85}' || c == '\U{A0}' || c == '\U{1680}'
    || ('\U{2000}' <= c <= '\U{200A}')
    || c == '\U{2028}' || c == '\U{2029}' || c == '\U{202F}' || c == '\U{205F}'
    || c == '\U{3000}'
  }

  /** A piece `str.split()` can return: non-empty and free of whitespace. */
  predicate IsWord(w: string) {
    |w| > 0 && forall i :: 0 <= i < |w| ==> !IsPythonSpace(w[i])
  }

  /** The text with every whitespace character dropped. */
  function RemoveSpaces(s: string): string {
    if |s| == 0 then []
    else if IsPythonSpace(s[0]) then RemoveSpaces(s[1..])
    else [s[0]] + RemoveSpaces(s[1..])
  }

  /** The pieces glued back together without separators. */
  function Concat(ws: seq<string>): string {
    if |ws| == 0 then [] else ws[0] + Concat(ws[1..])
  }

  /** The longest prefix of `s` that holds no whitespace. */
  function LeadingWord(s: string): (w: string)
    ensures w <= s
    ensures forall i :: 0 <= i < |w| ==> !IsPythonSpace(w[i])
    ensures |w| == |s| || IsPythonSpace(s[|w|])
  {
    if |s| == 0 || IsPythonSpace(s[0]) then [] else [s[0]] + LeadingWord(s[1..])
  }

  /** Dropping the spaces of a space-free prefix leaves that prefix in place. */
  lemma {:induction false} RemoveSpacesOfWordPrefix(w: string, t: string)
    requires forall i :: 0 <= i < |w| ==> !IsPythonSpace(w[i])
    ensures RemoveSpaces(w + t) == w + RemoveSpaces(t)
  {
    if |w| > 0 {
      var s := w + t;
      assert s[0] == w[0] && !IsPythonSpace(w[0]);
      assert RemoveSpaces(s) == [s[0]] + RemoveSpaces(s[1..]);
      assert s[1..] == w[1..] + t;
      RemoveSpacesOfWordPrefix(w[1..], t);
      assert w == [w[0]] + w[1..];
    } else {
      assert w + t == t;
    }
  }

  /** Python's `s.split()`: the maximal runs of non-whitespace, in order. Every piece
      is a word, and the pieces hold exactly the non-whitespace characters of `s`. */
  function Words(s: string): (r: seq<string>)
    decreases |s|
    ensures forall i :: 0 <= i < |r| ==> IsWord(r[i])
    ensures Concat(r) == RemoveSpaces(s)
  {
    if |s| == 0 then []
    else if IsPythonSpace(s[0]) then Words(s[1..])
    else
      var w := LeadingWord(s);
      var rest := s[|w|..];
      assert s == w + rest;
      RemoveSpacesOfWordPrefix(w, rest);
      [w] + Words(rest)
  }

  /** A word followed by whitespace or by nothing is the first piece of the split. */
  lemma {:induction false} WordsOfWordThen(w: string, t: string)
    requires IsWord(w)
    requires |t| == 0 || IsPythonSpace(t[0])
    ensures Words(w + t) == [w] + Words(t)
  {
    var s := w + t;
    assert s[0] == w[0];
    var lw := LeadingWord(s);
    LeadingWordOfWordThen(w, t);
    assert lw == w;
    assert s[|w|..] == t;
  }

  lemma {:induction false} LeadingWordOfWordThen(w: string, t: string)
    requires forall i :: 0 <= i < |w| ==> !IsPythonSpace(w[i])
    requires |t| == 0 || IsPythonSpace(t[0])
    ensures LeadingWord(w + t) == w
  {
    if |w| > 0 {
      assert (w + t)[1..] == w[1..] + t;
      LeadingWordOfWordThen(w[1..], t);
    } else {
      assert w + t == t;
    }
  }

  /** Leading whitespace never changes the split. */
  lemma {:induction false} WordsSkipsSpaces(sp: string, t: string)
    requires forall i :: 0 <= i < |sp| ==> IsPythonSpace(sp[i])
    ensures Words(sp + t) == Words(t)
  {
    if |sp| > 0 {
      assert (sp + t)[1..] == sp[1..] + t;
      WordsSkipsSpaces(sp[1..], t);
    } else {
      assert sp + t == t;
    }
  }

  /** True when every character of `s` is whitespace (the empty string included). */
  predicate IsBlank(s: string) {
    forall i :: 0 <= i < |s| ==> IsPythonSpace(s[i])
  }

  /** `seps[0] + ws[0] + seps[1] + ... + ws[n-1] + seps[n]`: words laid out between
      runs of separator text. */
  function Interleave(seps: seq<string>, ws: seq<string>): (s: string)
    requires |seps| == |ws| + 1
  {
    if |ws| == 0 then seps[0] else seps[0] + ws[0] + Interleave(seps[1..], ws[1..])
  }

  /** An interleaving starts with its first separator. */
  lemma InterleaveStart(seps: seq<string>, ws: seq<string>)
    requires |seps| == |ws| + 1 && |seps[0]| > 0
    ensures |Interleave(seps, ws)| > 0 && Interleave(seps, ws)[0] == seps[0][0]
  {
  }

  /** `split()` is pinned down uniquely: text made of words separated by non-empty
      runs of whitespace, with optional whitespace at either end, splits into exactly
      those words. So the pieces are the maximal runs of non-whitespace. */
  lemma {:induction false} WordsUnique(seps: seq<string>, ws: seq<string>)
    requires |seps| == |ws| + 1
    requires forall i :: 0 <= i < |seps| ==> IsBlank(seps[i])
    requires forall i :: 0 < i < |ws| ==> |seps[i]| > 0
    requires forall i :: 0 <= i < |ws| ==> IsWord(ws[i])
    ensures Words(Interleave(seps, ws)) == ws
  {
    if |ws| == 0 {
      assert seps[0] == seps[0] + [];
      WordsSkipsSpaces(seps[0], []);
    } else {
      var t := Interleave(seps[1..], ws[1..]);
      assert IsBlank(seps[1]);
      if |ws| > 1 {
        assert |seps[1..][0]| > 0;
        InterleaveStart(seps[1..], ws[1..]);
      }
      assert |t| == 0 || IsPythonSpace(t[0]);
      WordsOfLeadingWord(seps[0], ws[0], t);
      WordsUnique(seps[1..], ws[1..]);
      assert ws == [ws[0]] + ws[1..];
    }
  }

  /** Whitespace, then a word, then text that starts with whitespace or is empty:
      the word is the first piece of the split. */
  lemma WordsOfLeadingWord(sp: string, w: string, t: string)
    requires IsBlank(sp) && IsWord(w)
    requires |t| == 0 || IsPythonSpace(t[0])
    ensures Words(sp + w + t) == [w] + Words(t)
  {
    assert sp + w + t == sp + (w + t);
    WordsSkipsSpaces(sp, w + t);
    WordsOfWordThen(w, t);
  }

  /** Two words separated by a single whitespace character split into exactly those two. */
  lemma WordsOfPair(a: string, c: char, b: string)
    requires IsWord(a) && IsWord(b) && IsPythonSpace(c)
    ensures Words(a + [c] + b) == [a, b]
  {
    assert a + [c] + b == a + ([c] + b);
    WordsOfWordThen(a, [c] + b);
    WordsSkipsSpaces([c], b);
    assert b == b + [];
    WordsOfWordThen(b, []);
    assert Words([]) == [];
  }

  /** Python's `s.partition(sep)[0]`: everything before the first `sep`, or all of `s`
      when `sep` does not occur. The three ensures pin the result down uniquely. */
  function Before(s: string, sep: char): (r: string)
    ensures r <= s
    ensures sep !in r
    ensures |r| == |s| || s[|r|] == sep
  {
    if |s| == 0 then []
    else if s[0] == sep then []
    else [s[0]] + Before(s[1..], sep)
  }

  /** The prefix described by `Before`'s contract is unique: any prefix without `sep`
      that stops at the end or at a `sep` is `Before(s, sep)`. */
  lemma {:induction false} BeforeUnique(s: string, sep: char, p: string)
    requires p <= s && sep !in p
    requires |p| == |s| || s[|p|] == sep
    ensures p == Before(s, sep)
  {
  }

  /** `partition` is idempotent: cutting an already cut string changes nothing. */
  lemma BeforeIdempotent(s: string, sep: char)
    ensures Before(Before(s, sep), sep) == Before(s, sep)
  {
    var r := Before(s, sep);
    BeforeUnique(r, sep, r);
  }

  // ----- int(text) -------------------------------------------------------------

  predicate IsDigit(c: char) {
    '0' <= c <= '9'
  }

  /** The value of a non-empty run of ASCII decimal digits. */
  function DigitsValue(d: string): (n: nat)
    requires forall i :: 0 <= i < |d| ==> IsDigit(d[i])
  {
    if |d| == 0 then 0
    else
      assert IsDigit(d[|d| - 1]);
      DigitsValue(d[..|d| - 1]) * 10 + (d[|d| - 1] as int - '0' as int)
  }

  /** The shortest decimal rendering of a natural number. */
  function Digits(n: nat): (d: string)
    ensures |d| > 0
    ensures forall i :: 0 <= i < |d| ==> IsDigit(d[i])
  {
    if n < 10 then [('0' as int + n) as char]
    else Digits(n / 10) + [('0' as int + n % 10) as char]
  }

  /** The size of an integer, without its sign. */
  function Magnitude(n: int): nat {
    if n < 0 then -n else n
  }

  /** The decimal text of an integer, as Python's `str(n)` writes it. Python refuses
      to write, or to read back, more than `MaxStrDigits` digits; `ParseDecimal`
      states what that means for the round trip. */
  function Decimal(n: int): string {
    if n < 0 then "-" + Digits(-n) else Digits(n)
  }

  /** The whitespace `int()` skips around a number. `int()` first turns every
      non-ASCII whitespace character into a space and leaves ASCII text alone; it
      then skips only tab, line feed, vertical tab, form feed, carriage return and
      space. So the ASCII separators U+001C..U+001F, which `str.isspace()` counts as
      whitespace, are not skipped. */
  predicate IsIntSpace(c: char) {
    ('\t' <= c <= '\r') || c == ' ' || (c as int >= 128 && IsPythonSpace(c))
  }

  /** `s` with the whitespace `int()` skips removed from both ends. */
  function Strip(s: string): (r: string)
    ensures |r| <= |s|
  {
    if |s| > 0 && IsIntSpace(s[0]) then Strip(s[1..])
    else if |s| > 0 && IsIntSpace(s[|s| - 1]) then Strip(s[..|s| - 1])
    else s
  }

  /** A first character `int()` does not skip survives stripping as the first
      character. */
  lemma {:induction false} StripKeepsFirst(s: string)
    requires |s| > 0 && !IsIntSpace(s[0])
    ensures |Strip(s)| > 0 && Strip(s)[0] == s[0]
    decreases |s|
  {
    if IsIntSpace(s[|s| - 1]) {
      assert |s| > 1;
      var s' := s[..|s| - 1];
      assert s'[0] == s[0];
      StripKeepsFirst(s');
    }
  }

  /** A last character `int()` does not skip survives stripping as the last
      character. */
  lemma {:induction false} StripKeepsLast(s: string)
    requires |s| > 0 && !IsIntSpace(s[|s| - 1])
    ensures |Strip(s)| > 0 && Strip(s)[|Strip(s)| - 1] == s[|s| - 1]
    decreases |s|
  {
    if IsIntSpace(s[0]) {
      assert |s| > 1;
      var s' := s[1..];
      assert s'[|s'| - 1] == s[|s| - 1];
      StripKeepsLast(s');
    }
  }

  predicate AllDigits(d: string) {
    |d| > 0 && forall i :: 0 <= i < |d| ==> IsDigit(d[i])
  }

  /** The most digits `int()` reads, and `str()` writes, in base 10: CPython's default
      limit on integer string conversion (`sys.int_info.default_max_str_digits`).
      Leading zeros count. */
  const MaxStrDigits := 4300

  /** Python's `int(text)` on a base-10 string: optional surrounding whitespace, an
      optional sign, then one to `MaxStrDigits` ASCII digits. `None` stands for the
      `ValueError` Python raises for anything else. */
  function ParseInt(text: string): (r: Option<int>)
    ensures |Strip(text)| == 0 ==> r == None
    ensures r.Some? ==> |Strip(text)| <= MaxStrDigits + 1
  {
    var s := Strip(text);
    if |s| > 0 && (s[0] == '-' || s[0] == '+') then
      var d := s[1..];
      if AllDigits(d) && |d| <= MaxStrDigits then
        Some(if s[0] == '-' then -(DigitsValue(d) as int) else DigitsValue(d))
      else None
    else if AllDigits(s) && |s| <= MaxStrDigits then Some(DigitsValue(s))
    else None
  }

  /** A run of more than `MaxStrDigits` digits raises, whatever their value: 4301
      zeros are not read as 0. */
  lemma TooManyDigits(d: string)
    requires AllDigits(d) && |d| > MaxStrDigits
    ensures ParseInt(d) == None
    ensures ParseInt("-" + d) == None
  {
    StripOfDigits(d);
    StripOfDigits("-" + d);
    assert ("-" + d)[1..] == d;
  }

  /** `int("0" * 4301)` raises where `int("0" * 4300)` is 0. */
  lemma TooManyZeros()
    ensures ParseInt(seq(MaxStrDigits + 1, _ => '0')) == None
    ensures ParseInt(seq(MaxStrDigits, _ => '0')) == Some(0)
  {
    TooManyDigits(seq(MaxStrDigits + 1, _ => '0'));
    var z := seq(MaxStrDigits, _ => '0');
    StripOfDigits(z);
    DigitsOfZeros(z);
  }

  /** A run of zeros is worth 0. */
  lemma {:induction false} DigitsOfZeros(z: string)
    requires forall i :: 0 <= i < |z| ==> z[i] == '0'
    ensures DigitsValue(z) == 0
  {
    if |z| > 0 {
      DigitsOfZeros(z[..|z| - 1]);
    }
  }

  /** An ASCII information separator U+001C..U+001F at either end of the text makes
      `int()` raise: it is whitespace to `str.isspace()` but not to `int()`. */
  lemma SeparatorIsNotNumber(c: char, t: string)
    requires '\U{1C}' <= c <= '\U{1F}'
    ensures ParseInt([c] + t) == None
    ensures ParseInt(t + [c]) == None
  {
    StripKeepsFirst([c] + t);
    StripKeepsLast(t + [c]);
    var s := Strip(t + [c]);
    if |s| > 1 {
      assert s[1..][|s[1..]| - 1] == c;
    }
  }

  /** `int("\x1c5")` raises where `int(" 5")` gives 5. */
  lemma SeparatorExample()
    ensures ParseInt("\U{1C}5") == None
    ensures ParseInt(" 5") == Some(5)
  {
    SeparatorIsNotNumber('\U{1C}', "5");
    assert "\U{1C}5" == ['\U{1C}'] + "5";
    assert Strip(" 5") == "5";
  }

  /** Reading back the digits of `n` gives `n`. */
  lemma {:induction false} DigitsRoundTrip(n: nat)
    ensures DigitsValue(Digits(n)) == n
  {
    if n >= 10 {
      var d := Digits(n);
      assert d[..|d| - 1] == Digits(n / 10);
      DigitsRoundTrip(n / 10);
    }
  }

  lemma StripOfDigits(d: string)
    requires AllDigits(d) || (|d| > 1 && d[0] == '-' && AllDigits(d[1..]))
    ensures Strip(d) == d
  {
  }

  /** A larger number never has fewer digits. */
  lemma {:induction false} DigitsMonotone(a: nat, b: nat)
    requires a <= b
    ensures |Digits(a)| <= |Digits(b)|
  {
    if a >= 10 {
      DigitsMonotone(a / 10, b / 10);
    }
  }

  /** `int(str(n)) == n` for every integer of at most `MaxStrDigits` digits; beyond
      that the text does not read back. */
  lemma ParseDecimal(n: int)
    ensures |Digits(Magnitude(n))| <= MaxStrDigits ==> ParseInt(Decimal(n)) == Some(n)
    ensures |Digits(Magnitude(n))| > MaxStrDigits ==> ParseInt(Decimal(n)) == None
  {
    var s := Decimal(n);
    if n < 0 {
      assert s[1..] == Digits(-n);
      StripOfDigits(s);
      DigitsRoundTrip(-n);
    } else {
      StripOfDigits(s);
      DigitsRoundTrip(n);
    }
  }
}

=== FILE: utf8.dfy ===
/** UTF-8, as Python's `bytes.decode()` reads it with its default strict error
    handling: well-formed sequences only (no overlong forms, no surrogates, nothing
    above U+10FFFF). `char` is a Unicode scalar value here. */
module Utf8 {
  import opened Wrappers
  import opened Bytes

  /** The one to four octets of one scalar value. */
  function EncodeChar(c: char): (r: seq<byte>)
    ensures 1 <= |r| <= 4
  {
    var n := c as int;
    if n < 0x80 then [n]
    else if n < 0x800 then [0xC0 + n / 64, 0x80 + n % 64]
    else if n < 0x1_0000 then [0xE0 + n / 64 / 64, 0x80 + n / 64 % 64, 0x80 + n % 64]
    else [0xF0 + n / 64 / 64 / 64, 0x80 + n / 64 / 64 % 64, 0x80 + n / 64 % 64, 0x80 + n % 64]
  }

  /** The encoding of a whole string: the characters' encodings, in order. */
  function Encode(s: string): seq<byte> {
    if |s| == 0 then [] else EncodeChar(s[0]) + Encode(s[1..])
  }

  predicate IsContinuation(b: byte) {
    0x80 <= b < 0xC0
  }

  /** The value of a two-octet sequence, if it is well formed. */
  function DecodeTwo(b0: byte, b1: byte): Option<char>
    requires 0xC2 <= b0 < 0xE0
  {
    if IsContinuation(b1) then Some(((b0 - 0xC0) * 64 + (b1 - 0x80)) as char) else None
  }

  /** The value of a three-octet sequence, if it is well formed and neither overlong
      nor a surrogate. */
  function DecodeThree(b0: byte, b1: byte, b2: byte): Option<char>
    requires 0xE0 <= b0 < 0xF0
  {
    if !IsContinuation(b1) || !IsContinuation(b2) then None
    else
      var n := (b0 - 0xE0) * 4096 + (b1 - 0x80) * 64 + (b2 - 0x80);
      if n < 0x800 || 0xD800 <= n < 0xE000 then None else Some(n as char)
  }

  /** The value of a four-octet sequence, if it is well formed, not overlong and at
      most U+10FFFF. */
  function DecodeFour(b0: byte, b1: byte, b2: byte, b3: byte): Option<char>
    requires 0xF0 <= b0 < 0xF5
  {
    if !IsContinuation(b1) || !IsContinuation(b2) || !IsContinuation(b3) then None
    else
      var n := (b0 - 0xF0) * 262144 + (b1 - 0x80) * 4096 + (b2 - 0x80) * 64 + (b3 - 0x80);
      if n < 0x1_0000 || n >= 0x11_0000 then None else Some(n as char)
  }

  /** The first scalar value of `b` and the number of octets it takes. */
  function DecodeFirst(b: seq<byte>): (r: Option<(char, nat)>)
    requires |b| > 0
    ensures r.Some? ==> 1 <= r.value.1 <= |b|
  {
    var b0 := b[0];
    if b0 < 0x80 then Some((b0 as char, 1))
    else if 0xC2 <= b0 < 0xE0 then
      if |b| < 2 then None
      else var c :- DecodeTwo(b0, b[1]); Some((c, 2))
    else if 0xE0 <= b0 < 0xF0 then
      if |b| < 3 then None
      else var c :- DecodeThree(b0, b[1], b[2]); Some((c, 3))
    else if 0xF0 <= b0 < 0xF5 then
      if |b| < 4 then None
      else var c :- DecodeFour(b0, b[1], b[2], b[3]); Some((c, 4))
    else None
  }

  /** Strict UTF-8 decoding; `None` is the `UnicodeDecodeError` Python raises. Every
      character takes one to four octets. */
  function Decode(b: seq<byte>): (r: Option<string>)
    decreases |b|
    ensures r.Some? ==> |r.value| <= |b| <= 4 * |r.value|
  {
    if |b| == 0 then Some([])
    else
      var first :- DecodeFirst(b);
      var rest :- Decode(b[first.1..]);
      Some([first.0] + rest)
  }

  lemma DecodeFirstOfTwo(c: char, rest: seq<byte>)
    requires 0x80 <= c as int < 0x800
    ensures DecodeFirst(EncodeChar(c) + rest) == Some((c, 2))
  {
    var n := c as int;
    var e := EncodeChar(c);
    assert e == [0xC0 + n / 64, 0x80 + n % 64];
    assert (e + rest)[0] == e[0] && (e + rest)[1] == e[1];
    assert (n / 64) * 64 + n % 64 == n;
  }

  lemma DecodeFirstOfThree(c: char, rest: seq<byte>)
    requires 0x800 <= c as int < 0x1_0000
    ensures DecodeFirst(EncodeChar(c) + rest) == Some((c, 3))
  {
    var n := c as int;
    var m := n / 64;
    assert m * 64 + n % 64 == n;
    assert (m / 64) * 64 + m % 64 == m;
    var e := EncodeChar(c);
    assert e == [0xE0 + m / 64, 0x80 + m % 64, 0x80 + n % 64];
    assert (e + rest)[..3] == e;
    assert (m / 64) * 4096 + (m % 64) * 64 + n % 64 == n;
  }

  lemma DecodeFirstOfFour(c: char, rest: seq<byte>)
    requires 0x1_0000 <= c as int
    ensures DecodeFirst(EncodeChar(c) + rest) == Some((c, 4))
  {
    var n := c as int;
    var m := n / 64;
    var k := m / 64;
    assert m * 64 + n % 64 == n;
    assert k * 64 + m % 64 == m;
    assert (k / 64) * 64 + k % 64 == k;
    var e := EncodeChar(c);
    assert e == [0xF0 + k / 64, 0x80 + k % 64, 0x80 + m % 64, 0x80 + n % 64];
    assert (e + rest)[..4] == e;
    assert (k / 64) * 262144 + (k % 64) * 4096 + (m % 64) * 64 + n % 64 == n;
  }

  /** The decoder reads back exactly the first character of an encoding. */
  lemma DecodeFirstOfEncodeChar(c: char, rest: seq<byte>)
    ensures DecodeFirst(EncodeChar(c) + rest) == Some((c, |EncodeChar(c)|))
  {
    if c as int < 0x80 {
    } else if c as int < 0x800 {
      DecodeFirstOfTwo(c, rest);
    } else if c as int < 0x1_0000 {
      DecodeFirstOfThree(c, rest);
    } else {
      DecodeFirstOfFour(c, rest);
    }
  }

  /** Decoding undoes encoding for every string. */
  lemma {:induction false} DecodeEncode(s: string)
    ensures Decode(Encode(s)) == Some(s)
  {
    if |s| > 0 {
      var e := EncodeChar(s[0]);
      var b := Encode(s);
      assert b == e + Encode(s[1..]);
      DecodeFirstOfEncodeChar(s[0], Encode(s[1..]));
      assert b[|e|..] == Encode(s[1..]);
      DecodeEncode(s[1..]);
      assert s == [s[0]] + s[1..];
    }
  }

  lemma EncodeOfDecodeTwo(b: seq<byte>)
    requires |b| >= 2 && 0xC2 <= b[0] < 0xE0 && DecodeTwo(b[0], b[1]).Some?
    ensures EncodeChar(DecodeTwo(b[0], b[1]).value) == b[..2]
  {
    var n: int := (b[0] - 0xC0) as int * 64 + (b[1] - 0x80);
    assert n / 64 == b[0] - 0xC0 && n % 64 == b[1] - 0x80;
  }

  lemma EncodeOfDecodeThree(b: seq<byte>)
    requires |b| >= 3 && 0xE0 <= b[0] < 0xF0 && DecodeThree(b[0], b[1], b[2]).Some?
    ensures EncodeChar(DecodeThree(b[0], b[1], b[2]).value) == b[..3]
  {
    var n: int := (b[0] - 0xE0) as int * 4096 + (b[1] - 0x80) as int * 64 + (b[2] - 0x80);
    var m: int := (b[0] - 0xE0) as int * 64 + (b[1] - 0x80);
    assert n == m * 64 + (b[2] - 0x80);
    assert n / 64 == m && n % 64 == b[2] - 0x80;
    assert m / 64 == b[0] - 0xE0 && m % 64 == b[1] - 0x80;
  }

  lemma EncodeOfDecodeFour(b: seq<byte>)
    requires |b| >= 4 && 0xF0 <= b[0] < 0xF5 && DecodeFour(b[0], b[1], b[2], b[3]).Some?
    ensures EncodeChar(DecodeFour(b[0], b[1], b[2], b[3]).value) == b[..4]
  {
    var k: int := (b[0] - 0xF0) as int * 64 + (b[1] - 0x80);
    var m: int := k * 64 + (b[2] - 0x80);
    var n: int := m * 64 + (b[3] - 0x80);
    assert n == (b[0] - 0xF0) as int * 262144 + (b[1] - 0x80) as int * 4096 + (b[2] - 0x80) as int * 64 + (b[3] - 0x80);
    assert n / 64 == m && n % 64 == b[3] - 0x80;
    assert m / 64 == k && m % 64 == b[2] - 0x80;
    assert k / 64 == b[0] - 0xF0 && k % 64 == b[1] - 0x80;
  }

  /** What the decoder reads first is the encoding of the character it returns. */
  lemma EncodeOfDecodeFirst(b: seq<byte>)
    requires |b| > 0 && DecodeFirst(b).Some?
    ensures EncodeChar(DecodeFirst(b).value.0) == b[..DecodeFirst(b).value.1]
  {
    var b0 := b[0];
    if b0 < 0x80 {
    } else if 0xC2 <= b0 < 0xE0 {
      EncodeOfDecodeTwo(b);
    } else if 0xE0 <= b0 < 0xF0 {
      EncodeOfDecodeThree(b);
    } else {
      EncodeOfDecodeFour(b);
    }
  }

  /** A successful decode of a non-empty input is its first character followed by a
      successful decode of what comes after it. */
  lemma DecodeStep(b: seq<byte>)
    requires |b| > 0 && Decode(b).Some?
    ensures DecodeFirst(b).Some?
    ensures Decode(b[DecodeFirst(b).value.1..]).Some?
    ensures Decode(b).value == [DecodeFirst(b).value.0] + Decode(b[DecodeFirst(b).value.1..]).value
  {
  }

  lemma EncodeJoin(b: seq<byte>, c: char, k: nat, s: string)
    requires k <= |b| && EncodeChar(c) == b[..k] && Encode(s) == b[k..]
    ensures Encode([c] + s) == b
  {
    assert ([c] + s)[1..] == s;
    assert b == b[..k] + b[k..];
  }

  /** The decoder accepts only canonical encodings: whatever it reads, encoding the
      result gives back the very same octets. With `DecodeEncode` this makes `Decode`
      and `Encode` inverse bijections between strings and well-formed UTF-8. */
  lemma {:induction false} EncodeDecode(b: seq<byte>)
    requires Decode(b).Some?
    ensures Encode(Decode(b).value) == b
  {
    if |b| > 0 {
      DecodeStep(b);
      var first := DecodeFirst(b).value;
      var tail := b[first.1..];
      var rest := Decode(tail).value;
      EncodeOfDecodeFirst(b);
      EncodeDecode(tail);
      EncodeJoin(b, first.0, first.1, rest);
    }
  }
}

=== FILE: wrappers.dfy ===
/** The two outcome shapes of the views. Python hands back either a value or `None`,
    and a call either returns or raises; `Option` and `Result` carry these, and both
    work with Dafny's `:-` operator, so an absent value or a raised exception passes
    straight up to the caller, as it does in Python. */
module Wrappers {

  /** A value or Python's `None`. */
  datatype Option<+T> = None | Some(value: T) {

    /** The value, or `fallback` for `None`: Python's `x if x is not None else
        fallback`. */
    function GetOr(fallback: T): T {
      if Some? then value else fallback
    }

    // The three members `:-` needs: `None` stops the computation and is handed up.

    predicate IsFailure() {
      None?
    }

    function PropagateFailure<U>(): Option<U>
      requires None?
    {
      None
    }

    function Extract(): T
      requires Some?
    {
      value
    }
  }

  /** What a call did: returned `value`, or raised `error`. */
  datatype Result<+R, +E> = Success(value: R) | Failure(error: E) {

    // `:-` hands a raised exception up unchanged, like an uncaught `raise`.

    predicate IsFailure() {
      Failure?
    }

    function PropagateFailure<U>(): Result<U, E>
      requires Failure?
    {
      Failure(error)
    }

    function Extract(): R
      requires Success?
    {
      value
    }
  }
}
